=== FILE: README.md ===
# mytalk_server room and slot bookkeeping, in Dafny

This project models the bookkeeping inside the single `poll` loop of
`mytalk_server.cpp`, a one-process chat relay. Clients connect to one
listening socket. Each client is kept in a room (`public_room` at first),
and every line a client sends goes to the other members of its room. Two
reserved prefixes are commands: `Enter the room:` and `Quit the room:`.

The model is a pure state machine. The state (`Server.State`) holds:

- the `pollfd` table as a sequence of `Slot`s with `user_counter`;
- `room_map` as `map<string, seq<int>>`;
- `user_map` as `map<int, string>`;
- each client's pending write (`users[fd].write_buf`) as `map<int, Option<string>>`.

Each branch of the loop body is a transition function: `Accept`,
`Hangup`, `ReadError`, `EnterRoom`, `QuitRoom`, `Broadcast` and `Flush`.
`Dispatch` and `ClientEvent` pick a branch from the slot's `revents`, in the
source's order. The results of the kernel calls (`accept`, `recv`) are inputs.
The `events` field is a C `short`, so it is modelled as a `bv16`.
`USER_LIMIT` is 5 and `BUFFER_SIZE` is 64, as in the source.

The transitions model the code as written, including its faults. Those
faults are listed under "## Findings". Module `Findings` holds the
corrected transitions and `DispatchIntended`, a loop body built from them.
For `DispatchIntended` the two-way room directory invariant is proved.

Modules, leaves first: `Wrappers` (Option), `Vectors` (`vectorerase`),
`Interest` (poll masks), `Slots` (slot table), `Rooms` (room directory),
`Commands` (classifier), `Server` (transitions), `Invariants`, `Findings`,
`Scenarios`.

The model follows the code as written, including where it does less than
a reader might expect:

- The default room is named `public_room`.
- A zero-byte receive does nothing (the branch only logs that it should not be reached); a client is removed on `POLLRDHUP` or on a failed read.
- Removing a client does not clean up the room directory it was listed in.
- Entering a room erases the client only from `public_room`, not from its current room.

`room_map[...]` and `user_map[...]` are `operator[]` reads. A missing key
reads as an empty vector or as `""`. The program cannot tell a missing key
from one that holds the default, so `Rooms.Members` and `Rooms.RoomOf`
read missing keys as the default.

## Model

| member | source | states |
|---|---|---|
| Vectors.Erase | mytalk_server.cpp:43-56 | the result contains no `fd`; every other value keeps its multiplicity; the result is no longer than the input |
| Vectors.VectorErase | mytalk_server.cpp:45-55 | the in-place iterator loop (erase or step forward) produces exactly `Erase(fd, v)`, and no `fd` is left |
| Vectors.EraseIsSubsequence | mytalk_server.cpp:43-56 | the remaining elements keep their original relative order (the result is a subsequence of the input) |
| Vectors.EraseConcat | mytalk_server.cpp:43-56 | erasing works element by element: erasing from `a + b` equals erasing from `a` and from `b` separately |
| Vectors.EraseAbsent | mytalk_server.cpp:43-56 | erasing a value that does not occur leaves the vector unchanged |
| Vectors.EraseAppended | mytalk_server.cpp:197-198 | pushing `fd` and then erasing it gives the same vector as just erasing it |
| Interest.WatchWrite | mytalk_server.cpp:216-217 | OR-ing `~POLLIN` and then `POLLOUT` into `events` only adds bits; POLLOUT ends up set; POLLIN is set afterwards iff it was set before |
| Interest.WatchRead | mytalk_server.cpp:255-256 | OR-ing `~POLLOUT` and then `POLLIN` into `events` only adds bits; POLLIN ends up set; POLLOUT is never cleared |
| Interest.WatchWriteSaturates | mytalk_server.cpp:237-238 | for a slot that watches reads, the switch to write-watch gives the full mask 0xFFFF, with POLLIN still set |
| Interest.WatchReadSaturates | mytalk_server.cpp:255-256 | for a slot that watches writes, the switch back gives 0xFFFF, with POLLOUT still set |
| Interest.WatchWriteIntended | mytalk_server.cpp:216-217 | corrected mask: POLLIN cleared, POLLOUT set, every other bit kept |
| Interest.WatchReadIntended | mytalk_server.cpp:255-256 | corrected mask: POLLOUT cleared, POLLIN set, every other bit kept |
| Interest.IntendedRoundTrip | mytalk_server.cpp:216-256 | with the corrected masks, write-watch followed by read-watch restores a read-watching slot's mask exactly |
| Commands.Substr | mytalk_server.cpp:194 | `substr(pos, len)` returns `min(len, size - pos)` characters, copied from position `pos` |
| Commands.CString | mytalk_server.cpp:193 | the string read from the buffer is its prefix before the first NUL, and it contains no NUL |
| Commands.CStringWhole | mytalk_server.cpp:193 | a buffer without NUL is read back whole |
| Commands.Classify | mytalk_server.cpp:193-205 | Enter iff the text starts with `Enter the room:`; Quit iff it starts with `Quit the room:` but not with the Enter prefix; the room name is the verbatim rest; otherwise Chat carries the whole text |
| Commands.RenderClassify | mytalk_server.cpp:193-205 | classification loses nothing: rendering the classified command gives back the received text |
| Commands.ClassifyRender | mytalk_server.cpp:193-205 | every command whose chat payload does not look like a command is classified back to itself |
| Slots.InitSlots | mytalk_server.cpp:89-96 | six slots: slot 0 is the listener with POLLIN and POLLERR; slots 1-5 have fd -1 and empty interest |
| Slots.RemoveSlot | mytalk_server.cpp:158-162 | swap-remove keeps slot 0; the multiset of active descriptors loses exactly the removed descriptor |
| Rooms.Join | mytalk_server.cpp:197 | `room_map[name].push_back(fd)`: the named room gains `fd` at the end, whether or not it already lists it; every other room is unchanged |
| Rooms.Leave | mytalk_server.cpp:198 | `vectorerase(fd, room_map[name])`: the named room loses every occurrence of `fd` and keeps the rest in order; every other room is unchanged |
| Slots.FirstSlot | mytalk_server.cpp:232-236 | the linear search returns the first index holding `fd`, or the table length iff no slot holds it |
| Server.Init | mytalk_server.cpp:87-99 | the start state satisfies the slot invariant; it has no clients, no room members and no pending writes |
| Server.Accept | mytalk_server.cpp:123-139 | at capacity, "too many users\n" is sent, the connection is closed and the state is unchanged; otherwise the counter rises by 1, the new fd takes slot `user_counter` with its read interest, it is appended to `public_room`, `user_map[fd]` becomes `public_room`, and nothing else changes |
| Server.CopyClient | mytalk_server.cpp:158 | copying the client record copies the pending write of the last slot's fd to the departed fd; the last slot's fd keeps its own, and all others are left alone |
| Server.Hangup | mytalk_server.cpp:155-165 | closes the departed fd; the counter drops by 1; the active multiset loses exactly that fd; slot `i` receives the last client slot with its interest, and every other slot, slot 0 included, is unchanged; the fd of slot `i - 1` leaves its room and `user_map`, and no other room or mapping changes |
| Server.ReadError | mytalk_server.cpp:174-184 | closes the departed fd; the counter drops by 1; the active multiset loses exactly that fd; slot `i` receives the last client slot with its interest, and every other slot is unchanged; `room_map` and `user_map` are unchanged |
| Server.EnterRoom | mytalk_server.cpp:193-201 | `public_room` loses every occurrence of the sender; any other target room gains the sender at the end; `user_map[sender]` becomes the room; other rooms, slots and pending writes are unchanged |
| Server.QuitRoom | mytalk_server.cpp:203-220 | a member is appended to `public_room`, erased from the room, and mapped to `public_room`; when the room is `public_room` itself, that room loses only the sender and keeps every other member; a non-member keeps its membership, gets the exact warning text staged, gets POLLOUT set on its slot, and nothing else changes |
| Server.Stage | mytalk_server.cpp:226-240 | every member other than the sender gets the payload staged; the first slot holding it gets POLLOUT; the sender and non-members keep their pending writes; their slots are unchanged; every slot other than the first one holding its fd (a stale later copy) is unchanged; no bit is cleared |
| Server.Broadcast | mytalk_server.cpp:222-240 | every other member of the room `user_map` names gets the payload; the sender and everyone outside the room keep their pending writes; room maps are unchanged; slot descriptors are unchanged; only the first slot holding each other member is touched, and it gets POLLOUT; no bit is cleared |
| Server.Receive | mytalk_server.cpp:167-242 | `Enter the room:R` maps the sender to R, removes it from `public_room`, appends it to R, and leaves every other room (including the one it came from) unchanged; a member's `Quit the room:R` maps it to `public_room`, appends it to `public_room`, removes it from R, and leaves every other room unchanged; a non-member's quit stages the exact warning, sets POLLOUT on its slot and changes no membership; a chat line is staged, as the whole received text, for every other member of the sender's room (each target's first slot gets POLLOUT), and nobody else's pending write changes |
| Server.Flush | mytalk_server.cpp:244-256 | with no pending write nothing happens; otherwise exactly that payload is sent to the slot's fd, its pending write becomes null, the slot gains POLLIN, and nothing else changes |
| Server.FlushIdempotent | mytalk_server.cpp:247-253 | a second flush with nothing staged in between sends nothing and changes nothing |
| Server.Dispatch | mytalk_server.cpp:109-257 | on the listener's input: a failed accept does nothing, a full server sends the notice and closes, otherwise the client takes the next slot in `public_room`; the listener slot without input only logs; every client slot is handled as `ClientEvent` states; anything sent is the capacity notice or the slot's own pending write, and anything closed is the accepted connection or a removed client |
| Server.ClientEvent | mytalk_server.cpp:142-257 | per branch, in the source's order: an error report only logs; a hangup closes the client, its fd leaves the active slots, and the cleanup after `i--` takes slot `i - 1`'s fd out of its room and out of `user_map`, with every other room and mapping unchanged; a zero-byte or would-block receive does nothing; a failed read closes the client and removes its slot but keeps both maps; data is handled by `Receive`; a writable slot sends and clears its pending write and watches input again, or does nothing if there is none; any other report is ignored |
| Invariants.InitInvariants | mytalk_server.cpp:87-99 | the start state satisfies both the slot invariant and the directory property |
| Invariants.AcceptKeepsValid | mytalk_server.cpp:123-139 | admitting a fresh descriptor keeps the slot invariant, including `user_counter <= USER_LIMIT` |
| Invariants.RemovalKeepsSlots | mytalk_server.cpp:158-162 | a swap-remove keeps the slot invariant: client slots stay real, distinct and read-watching |
| Invariants.HangupKeepsValid | mytalk_server.cpp:155-165 | hangup keeps the slot invariant |
| Invariants.ReadErrorKeepsValid | mytalk_server.cpp:174-184 | a read error keeps the slot invariant |
| Invariants.EnterKeepsValid | mytalk_server.cpp:193-201 | entering a room keeps the slot invariant, and the listener stays out of every room |
| Invariants.QuitKeepsValid | mytalk_server.cpp:203-220 | quitting keeps the slot invariant; in particular POLLIN stays set on the warned slot |
| Invariants.BroadcastKeepsValid | mytalk_server.cpp:222-240 | broadcasting keeps the slot invariant: the listener slot is never touched and read interest is never lost |
| Invariants.ReceiveKeepsValid | mytalk_server.cpp:167-242 | every received message keeps the slot invariant |
| Invariants.FlushKeepsValid | mytalk_server.cpp:244-256 | flushing keeps the slot invariant |
| Invariants.DispatchKeepsValid | mytalk_server.cpp:101-258 | every pass of the loop body keeps the slot invariant, so `user_counter <= USER_LIMIT` and POLLIN on every client slot hold throughout |
| Invariants.AcceptKeepsListed | mytalk_server.cpp:132-139 | admission keeps every fd in `user_map` listed in its room |
| Invariants.HangupKeepsListed | mytalk_server.cpp:161-164 | the hangup cleanup keeps every fd in `user_map` listed in its room |
| Invariants.ReadErrorKeepsListed | mytalk_server.cpp:177-184 | a read error keeps every fd in `user_map` listed in its room |
| Invariants.EnterKeepsListed | mytalk_server.cpp:196-199 | entering any room except `public_room` keeps every fd in `user_map` listed in its room |
| Invariants.QuitKeepsListed | mytalk_server.cpp:206-210 | quitting any room except `public_room` keeps every fd in `user_map` listed in its room |
| Invariants.DispatchKeepsListed | mytalk_server.cpp:109-257 | every pass of the loop body keeps every fd in `user_map` listed in its room, except a join or leave command that names `public_room` |
| Findings.DirectoryMakesDeliverable | mytalk_server.cpp:226-236 | under the two-way directory invariant, the slot search finds every member the broadcast writes to |
| Findings.EnterPublicRoomUnlists | mytalk_server.cpp:196-199 | after `Enter the room:public_room`, `user_map` names `public_room` but that room does not list the client |
| Findings.EnterKeepsFormerRoom | mytalk_server.cpp:197-198 | entering a room leaves the client listed in the non-public room it came from |
| Findings.EnterRoomIntended | mytalk_server.cpp:196-199 | corrected join: the client leaves its current room and is listed in the new one; no other room changes |
| Findings.EnterRoomIntendedKeepsDirectory | mytalk_server.cpp:196-199 | the corrected join keeps the two-way directory for every room, `public_room` included |
| Findings.EnterAgainDuplicates | mytalk_server.cpp:196-197 | as written, entering a non-public room the client is already listed in lists it at least twice, while the set of listed fds stays the same |
| Findings.EnterRoomIntendedIdempotent | mytalk_server.cpp:196-199 | for every state, joining the same room twice with the corrected join gives the same mapping and the same set of listed fds in every room as joining once, and lists the client exactly once in that room |
| Findings.EnterRoomIntendedNoDuplicate | mytalk_server.cpp:196-199 | under the two-way directory, the corrected join lists the client exactly once in its new room |
| Findings.QuitPublicRoomUnlists | mytalk_server.cpp:206-210 | after quitting `public_room` while in it, `user_map` names `public_room` but that room does not list the client |
| Findings.QuitRoomIntended | mytalk_server.cpp:203-212 | corrected leave: a member is erased from the room and then listed in `public_room`; a non-member gets the warning as before |
| Findings.QuitRoomIntendedKeepsDirectory | mytalk_server.cpp:206-210 | the corrected leave keeps the two-way directory for every room, `public_room` included |
| Findings.QuitMemberKeepsDirectory | mytalk_server.cpp:206-210 | when the sender is a member of the room it quits, the corrected leave keeps the two-way directory |
| Findings.HangupForgetsNeighbour | mytalk_server.cpp:158-164 | a hangup in slot 2 or higher leaves the closed fd in `user_map` and in its room, and drops the still-connected fd of slot `i - 1` from `user_map` |
| Findings.DistinctCount | mytalk_server.cpp:132-135 | in a valid state each client fd occupies exactly one client slot |
| Findings.ReadErrorStrandsClient | mytalk_server.cpp:177-184 | after a read error the closed fd has no slot but is still in `user_map` and listed in its room |
| Findings.ReadErrorThenChatOverruns | mytalk_server.cpp:180-183 | with clients 4 and 5 in `public_room`, a read error on 4 leaves a room member that no slot holds, so 5's next chat would search past the array |
| Findings.HangupThenChatOverruns | mytalk_server.cpp:158-164 | with clients 4 and 5, a hangup of 4 cleans up the listener's slot instead: 4 stays in `public_room`, and 5's next chat would search past the array |
| Findings.RemoveClient | mytalk_server.cpp:155-165 | corrected removal: the departed fd leaves its room and `user_map`, and the slots are swap-removed as before |
| Findings.RemoveClientKeepsDirectory | mytalk_server.cpp:155-165 | corrected removal keeps the slot invariant and the two-way directory, and no room lists the departed fd afterwards |
| Findings.AcceptKeepsDirectory | mytalk_server.cpp:132-139 | admitting a fresh descriptor keeps the two-way directory |
| Findings.ReceiveIntended | mytalk_server.cpp:167-242 | with the corrected join and leave, every received message keeps the slot invariant and the two-way directory |
| Findings.DispatchIntended | mytalk_server.cpp:109-257 | the corrected loop body keeps the slot invariant and the two-way directory on every pass |
| Scenarios.ConnectThenEnter | mytalk_server.cpp:132-199 | client 4 connects and `public_room` lists exactly [4]; after `Enter the room:alpha`, `alpha` is [4] and `public_room` is empty |
| Scenarios.QuitOtherRoomWarns | mytalk_server.cpp:203-253 | a client alone in `alpha` that quits `beta` stays in `alpha`, and its next flush sends exactly `Warning:You are not in this room` |
| Scenarios.ChatReachesRoommate | mytalk_server.cpp:222-253 | with 4 and 5 in `alpha`, "hello" from 4 is flushed to 5, and 4 gets nothing |
| Scenarios.FullServerRejects | mytalk_server.cpp:123-130 | with all five client slots taken, a new connection gets "too many users\n", is closed, and the state is unchanged |

## Left out

- Socket and process setup is not modelled: argument parsing, `bind`, `listen` and `setnonblocking` (lines 33-39, 60-82). It is configuration, with no bookkeeping to verify.
- The kernel calls `poll`, `accept`, `recv`, `send`, `close` and `getsockopt` are not modelled as operations. Their results are inputs (`Io`, `revents`), and `Step` records what was sent and which fd was closed.
- A failing `poll` ends the loop and frees resources. This is process exit and is not modelled.
- The `POLLERR` branch only logs, so it is modelled as "no change". All `printf` logging is left out.
- Client addresses (`users[fd].address`) and the `users` array as C memory are not modelled.
- `Dispatch` models one pass of the loop body for one slot. The scan over slots 0..`user_counter` within a poll cycle is not modelled. Neither is the re-examination of slot `i` after `i--`. The caller picks the slot index, so both are covered as a sequence of passes.
- Server.Broadcast: the source stages a pointer to the sender's receive buffer. The model stages a copy of the text. If the sender receives again before the flush, the source sends the newer buffer contents; the model does not show this.
- Server.QuitRoom: the source stages a pointer to a stack-local array, which dangles after the branch. The model stages the literal warning text.
- The `users` array comes from `new client_data[FD_LIMIT]` and is not zero-initialised. The model assumes that every `write_buf` starts out null.
- The slot search of lines 233-236 runs past the end of `fds` when no slot holds the member. This is undefined behaviour and is not modelled. `Broadcast` and `Dispatch` require `Deliverable` instead. The findings lemmas show inputs that break it.
- `recv` fills at most `BUFFER_SIZE - 1` bytes. `Dispatch` takes that bound as a requirement on its input.

## Findings

| source | as written | input that shows it | evidently intended | confidence | as-written member | corrected member |
|---|---|---|---|---|---|---|
| mytalk_server.cpp:161-164 | after `i--` the cleanup reads `fds[i]`, which is the slot before the departed one | clients 4 and 5 in `public_room`, hangup on slot 1: 4 is closed but stays listed and mapped, and 5's next chat searches for 4 past the array | the departed fd leaves its room and `user_map` | high (not executed) | Findings.HangupForgetsNeighbour | Findings.RemoveClient |
| mytalk_server.cpp:177-184 | a read error closes and swap-removes the slot but keeps `room_map` and `user_map` | clients 4 and 5 in `public_room`, read error on slot 1: 4 stays listed, and 5's next chat searches for 4 past the array | the same cleanup as on hangup | high (not executed) | Findings.ReadErrorStrandsClient | Findings.RemoveClient |
| mytalk_server.cpp:196-199 | the sender is erased only from `public_room`, after it has been pushed to the new room | a client in `public_room` sends `Enter the room:public_room`: `user_map` says `public_room`, but no room lists it | leave the current room, then join the new one | high (not executed) | Findings.EnterPublicRoomUnlists | Findings.EnterRoomIntended |
| mytalk_server.cpp:196-197 | the sender is pushed to the named room even when that room already lists it | a client in `alpha` sends `Enter the room:alpha` again: `alpha` lists it twice | a join is idempotent and a room lists each client once | high (not executed) | Findings.EnterAgainDuplicates | Findings.EnterRoomIntended |
| mytalk_server.cpp:208-210 | the sender is pushed to `public_room` and then erased from the room it quits | a client in `public_room` sends `Quit the room:public_room`: it ends up listed nowhere | erase from the room, then join `public_room` | medium (not executed) | Findings.QuitPublicRoomUnlists | Findings.QuitRoomIntended |
| mytalk_server.cpp:216-217 | OR-ing `~POLLIN` into `events` sets every other bit and keeps POLLIN | an admitted slot (POLLIN, POLLRDHUP, POLLERR) becomes 0xFFFF, so it still watches reads | AND-ing with `~POLLIN` | high (not executed) | Interest.WatchWriteSaturates | Interest.WatchWriteIntended |
| mytalk_server.cpp:255-256 | OR-ing `~POLLOUT` into `events` sets every other bit and keeps POLLOUT | a write-watching slot becomes 0xFFFF after its flush, so it keeps watching writes | AND-ing with `~POLLOUT` | high (not executed) | Interest.WatchReadSaturates | Interest.WatchReadIntended |

`Server.Dispatch` and the `Invariants` lemmas use the as-written transitions, because they model the server as it is. `Findings.DispatchIntended` uses the corrected directory transitions. It keeps the as-written interest masks, since the slot invariant relies on POLLIN staying set. The corrected masks are proved on their own in `Interest`.

=== FILE: commands.dfy ===
/**
 * The command classifier: a received buffer is read as a C string and
 * compared with the two reserved prefixes; anything else is chat.
 */
module Commands {

  const ENTER_PREFIX: string := "Enter the room:"
  const QUIT_PREFIX: string := "Quit the room:"
  /** Capacity of a client's receive buffer; `recv` is asked for one byte less. */
  const BUFFER_SIZE: nat := 64

  datatype Command = Enter(room: string) | Quit(room: string) | Chat(payload: string)

  /** `std::string::substr(pos, len)`: at most `len` characters from `pos`. */
  function Substr(s: string, pos: nat, len: nat): (r: string)
    requires pos <= |s|
    ensures |r| == if len <= |s| - pos then len else |s| - pos
    ensures forall k :: 0 <= k < |r| ==> r[k] == s[pos + k]
  {
    if len <= |s| - pos then s[pos..pos + len] else s[pos..]
  }

  /** The characters of `buf` before its first NUL, as `string str_buf = buf` reads them. */
  function CString(buf: seq<char>): (r: string)
    ensures '\0' !in r
    ensures |r| <= |buf| && r == buf[..|r|]
    ensures |r| < |buf| ==> buf[|r|] == '\0'
    decreases |buf|
  {
    if |buf| == 0 || buf[0] == '\0' then []
    else [buf[0]] + CString(buf[1..])
  }

  /** A buffer with no NUL in it is read back whole. */
  lemma {:induction false} CStringWhole(buf: seq<char>)
    requires '\0' !in buf
    ensures CString(buf) == buf
    decreases |buf|
  {
    if |buf| > 0 {
      CStringWhole(buf[1..]);
      assert buf == [buf[0]] + buf[1..];
    }
  }

  /** `s` begins with `prefix`. */
  predicate StartsWith(s: string, prefix: string) {
    |prefix| <= |s| && s[..|prefix|] == prefix
  }

  /**
   * Lines 194 and 203: the first 15 (resp. 14) characters are compared with
   * the join (resp. leave) prefix and the rest is the room name, verbatim.
   */
  function Classify(text: string): (c: Command)
    ensures c.Enter? <==> StartsWith(text, ENTER_PREFIX)
    ensures c.Quit? <==> !StartsWith(text, ENTER_PREFIX) && StartsWith(text, QUIT_PREFIX)
    ensures c.Enter? ==> text == ENTER_PREFIX + c.room
    ensures c.Quit? ==> text == QUIT_PREFIX + c.room
    ensures c.Chat? ==> c.payload == text
  {
    if Substr(text, 0, 15) == ENTER_PREFIX then
      assert text == text[..15] + text[15..];
      Enter(text[15..])
    else if Substr(text, 0, 14) == QUIT_PREFIX then
      assert text == text[..14] + text[14..];
      Quit(text[14..])
    else
      Chat(text)
  }

  /** The text a client sends to issue `c`. */
  function Render(c: Command): string {
    match c
    case Enter(room) => ENTER_PREFIX + room
    case Quit(room) => QUIT_PREFIX + room
    case Chat(payload) => payload
  }

  /** A chat payload must not itself look like a command. */
  predicate Expressible(c: Command) {
    c.Chat? ==> !StartsWith(c.payload, ENTER_PREFIX) && !StartsWith(c.payload, QUIT_PREFIX)
  }

  /** Classifying loses nothing: the text is recovered from its command. */
  lemma RenderClassify(text: string)
    ensures Render(Classify(text)) == text
    ensures Expressible(Classify(text))
  {
  }

  /** Every expressible command is recognised again from the text that issues it. */
  lemma ClassifyRender(c: Command)
    requires Expressible(c)
    ensures Classify(Render(c)) == c
  {
    match c
    case Enter(room) =>
      assert (ENTER_PREFIX + room)[..15] == ENTER_PREFIX;
      assert (ENTER_PREFIX + room)[15..] == room;
    case Quit(room) =>
      assert (QUIT_PREFIX + room)[..14] == QUIT_PREFIX;
      assert (QUIT_PREFIX + room)[14..] == room;
      assert (QUIT_PREFIX + room)[0] != ENTER_PREFIX[0];
    case Chat(payload) =>
  }
}

=== FILE: findings.dfy ===
/**
 * Places where the server's code departs from what it evidently intends.
 * For each: a lemma exhibiting the behaviour of the code as written, and a
 * corrected transition with the intended property proved. `Dispatch`
 * keeps the behaviour as written; `DispatchIntended` runs the corrected
 * transitions and keeps the two-way room directory invariant.
 */
module Findings {
  import opened Wrappers
  import opened Vectors
  import opened Interest
  import opened Slots
  import opened Rooms
  import opened Commands
  import opened Server
  import opened Invariants

  /** `fd` occupies one of the client slots 1..user_counter. */
  predicate Active(s: State, fd: int)
    requires WellFormed(s)
  {
    fd in ActiveFds(s.slots, s.counter)
  }

  /**
   * The room directory as the cleanup code evidently intends it: `user_map` holds exactly
   * the connected clients, each is listed in the room it is mapped to, and
   * every listed descriptor is mapped to the room that lists it.
   */
  ghost predicate Directory(s: State)
    requires WellFormed(s)
  {
    && (forall fd :: fd in s.users <==> Active(s, fd))
    && Listed(s.rooms, s.users)
    && (forall n, fd :: n in s.rooms && fd in s.rooms[n] ==> fd in s.users && s.users[fd] == n)
  }

  /** Under the directory invariant every other member of the sender's room has a slot to find. */
  lemma DirectoryMakesDeliverable(s: State, i: nat)
    requires WellFormed(s) && 1 <= i <= s.counter && Directory(s)
    ensures Deliverable(s, i)
  {
    var room := RoomOf(s.users, s.slots[i].fd);
    forall j | j in Members(s.rooms, room) && j != s.slots[i].fd
      ensures j in Fds(s.slots)
    {
      assert room in s.rooms;
      assert Active(s, j);
      var k :| 0 <= k < s.counter && ActiveFds(s.slots, s.counter)[k] == j;
      assert Fds(s.slots)[k + 1] == j;
    }
  }

  // ---- Entering a room (lines 196-199) --------------------------------------

  /** As written, entering the public room leaves the client mapped to it but listed in it nowhere. */
  lemma EnterPublicRoomUnlists(s: State, fd: int)
    ensures var n := EnterRoom(s, fd, PUBLIC_ROOM);
      && RoomOf(n.users, fd) == PUBLIC_ROOM
      && fd !in Members(n.rooms, PUBLIC_ROOM)
      && !Listed(n.rooms, n.users)
  {
  }

  /** As written, entering a room keeps the client listed in the non-public room it came from. */
  lemma EnterKeepsFormerRoom(s: State, fd: int, room: string)
    requires RoomOf(s.users, fd) != PUBLIC_ROOM && RoomOf(s.users, fd) != room
    requires fd in Members(s.rooms, RoomOf(s.users, fd))
    ensures var n := EnterRoom(s, fd, room);
      fd in Members(n.rooms, RoomOf(s.users, fd)) && RoomOf(n.users, fd) == room
  {
  }

  /** Joining as evidently intended: leave the current room, then join `room`. */
  function EnterRoomIntended(s: State, fd: int, room: string): (r: State)
    ensures r.slots == s.slots && r.counter == s.counter && r.listenfd == s.listenfd
    ensures r.pending == s.pending
    ensures r.users == s.users[fd := room]
    ensures fd in Members(r.rooms, room)
    ensures RoomOf(s.users, fd) != room ==> fd !in Members(r.rooms, RoomOf(s.users, fd))
    ensures forall n :: n != room && n != RoomOf(s.users, fd) ==> Members(r.rooms, n) == Members(s.rooms, n)
  {
    var left := Leave(s.rooms, RoomOf(s.users, fd), fd);
    s.(rooms := Join(left, room, fd), users := s.users[fd := room])
  }

  /** The corrected join keeps the two-way directory, the public room included. */
  lemma EnterRoomIntendedKeepsDirectory(s: State, i: nat, room: string)
    requires WellFormed(s) && 1 <= i <= s.counter && Directory(s)
    ensures Directory(EnterRoomIntended(s, s.slots[i].fd, room))
  {
    var fd := s.slots[i].fd;
    var n := EnterRoomIntended(s, fd, room);
    var from := RoomOf(s.users, fd);
    assert Active(s, fd) by { assert ActiveFds(s.slots, s.counter)[i - 1] == fd; }
    forall g | g in n.users
      ensures g in Members(n.rooms, n.users[g])
    {
      if g != fd {
        assert g in Members(s.rooms, s.users[g]);
        if s.users[g] == from {
          assert Members(n.rooms, from) == Erase(fd, Members(s.rooms, from)) || from == room;
        }
      }
    }
    forall r, g | r in n.rooms && g in n.rooms[r]
      ensures g in n.users && n.users[g] == r
    {
      assert g in Members(n.rooms, r);
      if g != fd {
        assert g in Members(s.rooms, r);
        assert r in s.rooms;
      }
    }
  }

  /**
   * As written, entering a non-public room the client is already listed in
   * pushes a second copy: the room lists the same descriptors as before, but
   * the client now appears at least twice.
   */
  lemma EnterAgainDuplicates(s: State, fd: int, room: string)
    requires room != PUBLIC_ROOM && fd in Members(s.rooms, room)
    ensures var n := EnterRoom(s, fd, room);
      && multiset(Members(n.rooms, room))[fd] >= 2
      && (forall x :: x in Members(n.rooms, room) <==> x in Members(s.rooms, room))
  {
  }

  /**
   * The corrected join is idempotent: joining the same room a second time
   * changes no room's listed descriptors and no mapping, and leaves the
   * client listed exactly once in that room.
   */
  lemma EnterRoomIntendedIdempotent(s: State, fd: int, room: string)
    ensures var once := EnterRoomIntended(s, fd, room);
      var twice := EnterRoomIntended(once, fd, room);
      && twice.users == once.users && twice.slots == once.slots && twice.pending == once.pending
      && (forall n, x :: x in Members(twice.rooms, n) <==> x in Members(once.rooms, n))
      && multiset(Members(twice.rooms, room))[fd] == 1
  {
    var once := EnterRoomIntended(s, fd, room);
    var twice := EnterRoomIntended(once, fd, room);
    var erased := Erase(fd, Members(once.rooms, room));
    assert Members(twice.rooms, room) == erased + [fd];
    assert multiset(erased)[fd] == 0;
  }

  /** Under the directory invariant the corrected join lists the client exactly once in its new room. */
  lemma EnterRoomIntendedNoDuplicate(s: State, i: nat, room: string)
    requires WellFormed(s) && 1 <= i <= s.counter && Directory(s)
    ensures multiset(Members(EnterRoomIntended(s, s.slots[i].fd, room).rooms, room))[s.slots[i].fd] == 1
  {
    var fd := s.slots[i].fd;
    var from := RoomOf(s.users, fd);
    assert Active(s, fd) by { assert ActiveFds(s.slots, s.counter)[i - 1] == fd; }
    var left := Leave(s.rooms, from, fd);
    if from == room {
      assert multiset(Members(left, room))[fd] == 0;
    } else {
      assert fd !in Members(s.rooms, room);
      assert multiset(Members(left, room))[fd] == 0;
    }
  }

  // ---- Leaving a room (lines 205-212) ---------------------------------------

  /** As written, quitting the public room while in it leaves the client listed nowhere in it. */
  lemma QuitPublicRoomUnlists(s: State, i: nat)
    requires WellFormed(s) && 1 <= i <= s.counter
    requires s.slots[i].fd in Members(s.rooms, PUBLIC_ROOM)
    ensures var n := QuitRoom(s, i, PUBLIC_ROOM);
      && RoomOf(n.users, s.slots[i].fd) == PUBLIC_ROOM
      && s.slots[i].fd !in Members(n.rooms, PUBLIC_ROOM)
      && !Listed(n.rooms, n.users)
  {
  }

  /** Leaving as evidently intended: erase from `room` first, then join the public room. */
  function QuitRoomIntended(s: State, i: nat, room: string): (r: State)
    requires WellFormed(s) && 1 <= i <= s.counter
    ensures r.counter == s.counter && r.listenfd == s.listenfd
    ensures var fd := s.slots[i].fd;
      if fd in Members(s.rooms, room) then
        && r.slots == s.slots && r.pending == s.pending
        && r.users == s.users[fd := PUBLIC_ROOM]
        && fd in Members(r.rooms, PUBLIC_ROOM)
        && (room != PUBLIC_ROOM ==> fd !in Members(r.rooms, room))
        && (forall n :: n != room && n != PUBLIC_ROOM ==> Members(r.rooms, n) == Members(s.rooms, n))
      else
        r == QuitRoom(s, i, room)
  {
    var fd := s.slots[i].fd;
    if fd in Members(s.rooms, room) then
      s.(rooms := Join(Leave(s.rooms, room, fd), PUBLIC_ROOM, fd), users := s.users[fd := PUBLIC_ROOM])
    else
      QuitRoom(s, i, room)
  }

  /** The corrected leave keeps the two-way directory, the public room included. */
  lemma QuitRoomIntendedKeepsDirectory(s: State, i: nat, room: string)
    requires WellFormed(s) && 1 <= i <= s.counter && Directory(s)
    ensures Directory(QuitRoomIntended(s, i, room))
  {
    var fd := s.slots[i].fd;
    var n := QuitRoomIntended(s, i, room);
    if fd in Members(s.rooms, room) {
      QuitMemberKeepsDirectory(s, i, room);
    } else {
      assert n.slots == s.slots[i := n.slots[i]];
      assert Fds(n.slots) == Fds(s.slots);
      SameDirectory(s, n);
    }
  }

  /** A member's corrected leave keeps the two-way directory. */
  lemma QuitMemberKeepsDirectory(s: State, i: nat, room: string)
    requires WellFormed(s) && 1 <= i <= s.counter && Directory(s)
    requires s.slots[i].fd in Members(s.rooms, room)
    ensures Directory(QuitRoomIntended(s, i, room))
  {
    var fd := s.slots[i].fd;
    var n := QuitRoomIntended(s, i, room);
    assert room in s.rooms && s.users[fd] == room;
    forall g | g in n.users
      ensures g in Members(n.rooms, n.users[g])
    {
      if g != fd {
        assert g in Members(s.rooms, s.users[g]);
      }
    }
    forall r, g | r in n.rooms && g in n.rooms[r]
      ensures g in n.users && n.users[g] == r
    {
      assert g in Members(n.rooms, r);
      if g != fd {
        assert g in Members(s.rooms, r);
        assert r in s.rooms;
      }
    }
  }

  // ---- Removing a client (lines 155-165 and 174-184) -------------------------

  /**
   * As written, a hangup in slot `i >= 2` keeps the departed client in
   * `user_map` and in its room, and drops the still-connected client of slot
   * `i - 1` from `user_map`.
   */
  lemma HangupForgetsNeighbour(s: State, i: nat)
    requires Valid(s) && Directory(s) && 2 <= i <= s.counter
    ensures var n := Hangup(s, i).next;
      var departed := s.slots[i].fd;
      var neighbour := s.slots[i - 1].fd;
      && Hangup(s, i).closed == Some(departed)
      && !Active(n, departed) && departed in n.users
      && departed in Members(n.rooms, n.users[departed])
      && Active(n, neighbour) && neighbour !in n.users
  {
    var n := Hangup(s, i).next;
    var departed := s.slots[i].fd;
    var neighbour := s.slots[i - 1].fd;
    assert departed != neighbour;
    assert Active(s, departed) by { assert ActiveFds(s.slots, s.counter)[i - 1] == departed; }
    assert ActiveFds(n.slots, n.counter)[i - 2] == neighbour;
    assert multiset(ActiveFds(s.slots, s.counter))[departed] == 1 by {
      DistinctCount(s, i);
    }
  }

  /** In a valid state the client of slot `i` occupies exactly one client slot. */
  lemma DistinctCount(s: State, i: nat)
    requires Valid(s) && 1 <= i <= s.counter
    ensures multiset(ActiveFds(s.slots, s.counter))[s.slots[i].fd] == 1
  {
    var a := ActiveFds(s.slots, s.counter);
    var fd := s.slots[i].fd;
    assert a == a[..i - 1] + [fd] + a[i..];
    var front, back := a[..i - 1], a[i..];
    assert fd !in front by {
      forall k | 0 <= k < |front| ensures front[k] != fd { assert front[k] == s.slots[k + 1].fd; }
    }
    assert fd !in back by {
      forall k | 0 <= k < |back| ensures back[k] != fd { assert back[k] == s.slots[i + k + 1].fd; }
    }
  }

  /** As written, a read error keeps the departed client in `user_map` and in its room. */
  lemma ReadErrorStrandsClient(s: State, i: nat)
    requires Valid(s) && Directory(s) && 1 <= i <= s.counter
    ensures var n := ReadError(s, i).next;
      var departed := s.slots[i].fd;
      !Active(n, departed) && departed in n.users && departed in Members(n.rooms, n.users[departed])
  {
    var departed := s.slots[i].fd;
    assert Active(s, departed) by { assert ActiveFds(s.slots, s.counter)[i - 1] == departed; }
    DistinctCount(s, i);
  }

  /** Listener 3, clients 4 and 5 in the public room. */
  function TwoClients(): (s: State)
    ensures Valid(s) && Directory(s)
  {
    var s := State(3,
      [Slot(3, LISTEN_EVENTS), Slot(4, CLIENT_EVENTS), Slot(5, CLIENT_EVENTS),
       Slot(-1, 0), Slot(-1, 0), Slot(-1, 0)],
      2, map[PUBLIC_ROOM := [4, 5]], map[4 := PUBLIC_ROOM, 5 := PUBLIC_ROOM], map[]);
    assert ActiveFds(s.slots, s.counter) == [4, 5];
    s
  }

  /**
   * After client 4 fails a read, client 5's next chat makes the slot search
   * look for descriptor 4, which no slot holds any more: the source reads
   * past the end of the `fds` array.
   */
  lemma ReadErrorThenChatOverruns()
    ensures var n := ReadError(TwoClients(), 1).next;
      n.counter == 1 && n.slots[1].fd == 5 && !Deliverable(n, 1)
  {
    var n := ReadError(TwoClients(), 1).next;
    assert Members(n.rooms, RoomOf(n.users, 5)) == [4, 5];
    assert Fds(n.slots) == [3, 5, 5, -1, -1, -1];
    assert 4 in Members(n.rooms, RoomOf(n.users, n.slots[1].fd)) && 4 !in Fds(n.slots);
  }

  /** The same overrun after client 4 hangs up: the cleanup went to the listener's slot. */
  lemma HangupThenChatOverruns()
    ensures var n := Hangup(TwoClients(), 1).next;
      n.counter == 1 && n.slots[1].fd == 5 && 4 in Members(n.rooms, PUBLIC_ROOM) && !Deliverable(n, 1)
  {
    var n := Hangup(TwoClients(), 1).next;
    assert Members(n.rooms, PUBLIC_ROOM) == [4, 5];
    assert RoomOf(n.users, 5) == PUBLIC_ROOM;
    assert Fds(n.slots) == [3, 5, 5, -1, -1, -1];
    assert 4 in Members(n.rooms, RoomOf(n.users, n.slots[1].fd)) && 4 !in Fds(n.slots);
  }

  /** Removal as the cleanup evidently intends: the departed client leaves its room and `user_map`. */
  function RemoveClient(s: State, i: nat): (st: Step)
    requires WellFormed(s) && 1 <= i <= s.counter
    ensures st.closed == Some(s.slots[i].fd) && st.sent == None
    ensures st.next.counter == s.counter - 1 && st.next.listenfd == s.listenfd
    ensures st.next.slots == RemoveSlot(s.slots, s.counter, i)
    ensures s.slots[i].fd !in st.next.users
    ensures s.slots[i].fd !in Members(st.next.rooms, RoomOf(s.users, s.slots[i].fd))
    ensures forall n :: n != RoomOf(s.users, s.slots[i].fd) ==> Members(st.next.rooms, n) == Members(s.rooms, n)
  {
    var departed := s.slots[i].fd;
    var next := s.(
      pending := CopyClient(s.pending, departed, s.slots[s.counter].fd),
      slots := RemoveSlot(s.slots, s.counter, i),
      counter := s.counter - 1,
      rooms := Leave(s.rooms, RoomOf(s.users, departed), departed),
      users := s.users - {departed});
    Step(next, None, Some(departed))
  }

  /** Corrected removal keeps both the slot invariant and the two-way directory. */
  lemma RemoveClientKeepsDirectory(s: State, i: nat)
    requires Valid(s) && Directory(s) && 1 <= i <= s.counter
    ensures Valid(RemoveClient(s, i).next) && Directory(RemoveClient(s, i).next)
    ensures Unlisted(RemoveClient(s, i).next.rooms, s.slots[i].fd)
  {
    var n := RemoveClient(s, i).next;
    RemoveClientUnlists(s, i);
    RemovalKeepsSlots(s, i, n);
    RemoveClientActive(s, i);
    RemoveClientMaps(s, i);
  }

  lemma RemoveClientUnlists(s: State, i: nat)
    requires Valid(s) && Directory(s) && 1 <= i <= s.counter
    ensures Unlisted(RemoveClient(s, i).next.rooms, s.slots[i].fd)
    ensures Unlisted(RemoveClient(s, i).next.rooms, s.listenfd)
  {
    var n := RemoveClient(s, i).next;
    var departed := s.slots[i].fd;
    var home := RoomOf(s.users, departed);
    forall r | r in n.rooms
      ensures s.listenfd !in n.rooms[r] && departed !in n.rooms[r]
    {
      assert n.rooms[r] == Members(n.rooms, r);
      if r != home {
        assert Members(n.rooms, r) == Members(s.rooms, r);
      }
    }
  }

  lemma RemoveClientActive(s: State, i: nat)
    requires Valid(s) && Directory(s) && 1 <= i <= s.counter
    ensures WellFormed(RemoveClient(s, i).next)
    ensures forall fd :: fd in RemoveClient(s, i).next.users <==> Active(RemoveClient(s, i).next, fd)
  {
    var n := RemoveClient(s, i).next;
    var departed := s.slots[i].fd;
    DistinctCount(s, i);
    forall fd
      ensures fd in n.users <==> Active(n, fd)
    {
      assert multiset(ActiveFds(n.slots, n.counter))[fd]
          == multiset(ActiveFds(s.slots, s.counter))[fd] - (if fd == departed then 1 else 0);
      assert fd in n.users <==> fd in s.users && fd != departed;
    }
  }

  lemma RemoveClientMaps(s: State, i: nat)
    requires Valid(s) && Directory(s) && 1 <= i <= s.counter
    ensures var n := RemoveClient(s, i).next;
      && Listed(n.rooms, n.users)
      && (forall r, g :: r in n.rooms && g in n.rooms[r] ==> g in n.users && n.users[g] == r)
  {
    var n := RemoveClient(s, i).next;
    forall g | g in n.users
      ensures g in Members(n.rooms, n.users[g])
    {
      assert g in Members(s.rooms, s.users[g]);
    }
    forall r, g | r in n.rooms && g in n.rooms[r]
      ensures g in n.users && n.users[g] == r
    {
      assert g in Members(n.rooms, r);
      assert g in Members(s.rooms, r);
      assert r in s.rooms;
    }
  }

  // ---- The corrected event loop ----------------------------------------------

  lemma AcceptKeepsDirectory(s: State, connfd: int)
    requires Valid(s) && Directory(s) && Fresh(s, connfd)
    ensures Directory(Accept(s, connfd).next)
  {
    var n := Accept(s, connfd).next;
    if s.counter < USER_LIMIT {
      assert ActiveFds(n.slots, n.counter) == ActiveFds(s.slots, s.counter) + [connfd];
      assert connfd !in s.users;
      forall r, g | r in n.rooms && g in n.rooms[r]
        ensures g in n.users && n.users[g] == r
      {
        assert g in Members(n.rooms, r);
        if r != PUBLIC_ROOM {
          assert g in Members(s.rooms, r);
          assert r in s.rooms;
        } else if g != connfd {
          assert g in Members(s.rooms, r);
          assert r in s.rooms;
        }
      }
      forall g | g in n.users
        ensures g in Members(n.rooms, n.users[g])
      {
        if g != connfd {
          assert g in Members(s.rooms, s.users[g]);
        }
      }
    }
  }

  /** Changes that keep every descriptor in place and leave both maps alone keep the directory. */
  lemma SameDirectory(s: State, n: State)
    requires WellFormed(s) && WellFormed(n) && Directory(s)
    requires n.counter == s.counter && Fds(n.slots) == Fds(s.slots)
    requires n.rooms == s.rooms && n.users == s.users
    ensures Directory(n)
  {
    assert ActiveFds(n.slots, n.counter) == ActiveFds(s.slots, s.counter);
  }

  lemma EnterRoomIntendedKeepsValid(s: State, i: nat, room: string)
    requires Valid(s) && 1 <= i <= s.counter
    ensures Valid(EnterRoomIntended(s, s.slots[i].fd, room))
  {
    var n := EnterRoomIntended(s, s.slots[i].fd, room);
    forall r | r in n.rooms
      ensures s.listenfd !in n.rooms[r]
    {
      assert n.rooms[r] == Members(n.rooms, r);
    }
  }

  lemma QuitRoomIntendedKeepsValid(s: State, i: nat, room: string)
    requires Valid(s) && 1 <= i <= s.counter
    ensures Valid(QuitRoomIntended(s, i, room))
  {
    var n := QuitRoomIntended(s, i, room);
    if s.slots[i].fd in Members(s.rooms, room) {
      forall r | r in n.rooms
        ensures s.listenfd !in n.rooms[r]
      {
        assert n.rooms[r] == Members(n.rooms, r);
      }
    } else {
      QuitKeepsValid(s, i, room);
    }
  }

  /** Lines 170-242 with the corrected join and leave. */
  function ReceiveIntended(s: State, i: nat, bytes: seq<char>): (r: State)
    requires Valid(s) && Directory(s) && 1 <= i <= s.counter
    ensures Valid(r) && Directory(r)
    ensures r.counter == s.counter && Fds(r.slots) == Fds(s.slots)
  {
    match Classify(CString(bytes))
    case Enter(room) =>
      EnterRoomIntendedKeepsValid(s, i, room);
      EnterRoomIntendedKeepsDirectory(s, i, room);
      assert Fds(EnterRoomIntended(s, s.slots[i].fd, room).slots) == Fds(s.slots);
      EnterRoomIntended(s, s.slots[i].fd, room)
    case Quit(room) =>
      QuitRoomIntendedKeepsValid(s, i, room);
      QuitRoomIntendedKeepsDirectory(s, i, room);
      var r := QuitRoomIntended(s, i, room);
      assert Fds(r.slots) == Fds(s.slots) by {
        if s.slots[i].fd !in Members(s.rooms, room) {
          assert forall k :: 0 <= k < |s.slots| ==> r.slots[k].fd == s.slots[k].fd;
        }
      }
      r
    case Chat(payload) =>
      DirectoryMakesDeliverable(s, i);
      BroadcastKeepsValid(s, i, payload);
      SameDirectory(s, Broadcast(s, i, payload));
      Broadcast(s, i, payload)
  }

  /**
   * The loop body of `Dispatch` with both removals cleaning up the departed
   * client and with the corrected join and leave: the two-way room
   * directory holds after every pass, and no broadcast can miss a slot.
   */
  function DispatchIntended(s: State, i: nat, revents: Events, io: Io): (st: Step)
    requires Valid(s) && Directory(s) && i <= s.counter
    requires Reportable(revents, s.slots[i].events)
    requires io.accepted >= 0 ==> Fresh(s, io.accepted)
    ensures Valid(st.next) && Directory(st.next)
  {
    if s.slots[i].fd == s.listenfd && Has(revents, POLLIN) then
      if io.accepted < 0 then Step(s, None, None)
      else
        AcceptKeepsValid(s, io.accepted);
        AcceptKeepsDirectory(s, io.accepted);
        Accept(s, io.accepted)
    else if Has(revents, POLLERR) then
      Step(s, None, None)
    else if Has(revents, POLLRDHUP) then
      RemoveClientKeepsDirectory(s, i);
      RemoveClient(s, i)
    else if Has(revents, POLLIN) then
      match io.received
      case Failed(wouldBlock) =>
        if wouldBlock then Step(s, None, None)
        else
          RemoveClientKeepsDirectory(s, i);
          RemoveClient(s, i)
      case Closed => Step(s, None, None)
      case Data(bytes) => Step(ReceiveIntended(s, i, bytes), None, None)
    else if Has(revents, POLLOUT) then
      FlushKeepsValid(s, i);
      var st := Flush(s, i);
      assert Fds(st.next.slots) == Fds(s.slots) by {
        if st.next != s {
          assert forall k :: 0 <= k < |s.slots| ==> st.next.slots[k].fd == s.slots[k].fd;
        }
      }
      SameDirectory(s, st.next);
      st
    else
      Step(s, None, None)
  }
}

=== FILE: interest.dfy ===
/**
 * Poll interest masks. The `events` field of a `pollfd` is a C `short`, so it
 * is modelled as a 16-bit vector; the flag values are the Linux ones.
 */
module Interest {

  type Events = bv16

  const POLLIN: Events := 0x0001
  const POLLOUT: Events := 0x0004
  const POLLERR: Events := 0x0008
  const POLLHUP: Events := 0x0010
  const POLLNVAL: Events := 0x0020
  const POLLRDHUP: Events := 0x2000

  /** Interest of the listening slot. */
  const LISTEN_EVENTS: Events := POLLIN | POLLERR
  /** Interest given to a freshly admitted client slot. */
  const CLIENT_EVENTS: Events := POLLIN | POLLRDHUP | POLLERR

  /** Every bit of `flags` is set in `e`. */
  predicate Has(e: Events, flags: Events) {
    e & flags == flags
  }

  /**
   * The poll contract: the kernel reports only requested conditions, plus the
   * error, hangup and invalid conditions it always reports.
   */
  predicate Reportable(revents: Events, events: Events) {
    Has(events | POLLERR | POLLHUP | POLLNVAL, revents)
  }

  /**
   * `events |= ~POLLIN; events |= POLLOUT;` as written. `~POLLIN` is the int
   * -2; OR-ing it into the short and truncating back to 16 bits sets every
   * bit except the POLLIN one, which keeps whatever value it had.
   */
  function WatchWrite(e: Events): (r: Events)
    ensures Has(r, e)
    ensures Has(r, POLLOUT)
    ensures Has(r, POLLIN) <==> Has(e, POLLIN)
  {
    (e | !POLLIN) | POLLOUT
  }

  /** `events |= ~POLLOUT; events |= POLLIN;` as written: the POLLOUT bit is never cleared. */
  function WatchRead(e: Events): (r: Events)
    ensures Has(r, e)
    ensures Has(r, POLLIN)
    ensures Has(r, POLLOUT) <==> Has(e, POLLOUT)
  {
    (e | !POLLOUT) | POLLIN
  }

  /** For a slot that is watching reads, switching to write-watch yields the full mask. */
  lemma WatchWriteSaturates(e: Events)
    requires Has(e, POLLIN)
    ensures WatchWrite(e) == 0xFFFF
    ensures Has(WatchWrite(e), POLLIN)
  {
  }

  /** For a slot that is watching writes, switching back to read-watch yields the full mask. */
  lemma WatchReadSaturates(e: Events)
    requires Has(e, POLLOUT)
    ensures WatchRead(e) == 0xFFFF
    ensures Has(WatchRead(e), POLLOUT)
  {
  }

  /** The evident intent of lines 216-217 and 237-238: stop reading, start writing. */
  function WatchWriteIntended(e: Events): (r: Events)
    ensures !Has(r, POLLIN) && Has(r, POLLOUT)
    ensures r & !(POLLIN | POLLOUT) == e & !(POLLIN | POLLOUT)
  {
    (e & !POLLIN) | POLLOUT
  }

  /** The evident intent of lines 255-256: stop writing, start reading. */
  function WatchReadIntended(e: Events): (r: Events)
    ensures Has(r, POLLIN) && !Has(r, POLLOUT)
    ensures r & !(POLLIN | POLLOUT) == e & !(POLLIN | POLLOUT)
  {
    (e & !POLLOUT) | POLLIN
  }

  /** With the intended masks a write-watch followed by a read-watch restores a client slot. */
  lemma IntendedRoundTrip(e: Events)
    requires Has(e, POLLIN) && !Has(e, POLLOUT)
    ensures WatchReadIntended(WatchWriteIntended(e)) == e
  {
  }
}

=== FILE: invariants.dfy ===
/**
 * What every transition keeps: the slot-table invariant `Valid` always, the
 * directory property `Listed` on every transition except entering or
 * quitting the public room itself.
 */
module Invariants {
  import opened Interest
  import opened Slots
  import opened Rooms
  import opened Commands
  import opened Server

  lemma InitInvariants(listenfd: int)
    requires listenfd >= 0
    ensures Valid(Init(listenfd)) && Listed(Init(listenfd).rooms, Init(listenfd).users)
  {
  }

  /** Admission keeps the invariant, in particular `user_counter <= USER_LIMIT`. */
  lemma AcceptKeepsValid(s: State, connfd: int)
    requires Valid(s) && Fresh(s, connfd)
    ensures Valid(Accept(s, connfd).next)
  {
    var n := Accept(s, connfd).next;
    if s.counter < USER_LIMIT {
      forall j, k | 1 <= j < k <= n.counter
        ensures n.slots[j].fd != n.slots[k].fd
      {
        if k == n.counter {
          assert s.slots[j].fd == ActiveFds(s.slots, s.counter)[j - 1];
        }
      }
    }
  }

  /** Both removals produce the same slot table; only the directory differs. */
  lemma RemovalKeepsSlots(s: State, i: nat, n: State)
    requires Valid(s) && 1 <= i <= s.counter
    requires n.listenfd == s.listenfd && n.counter == s.counter - 1
    requires n.slots == RemoveSlot(s.slots, s.counter, i)
    requires Unlisted(n.rooms, s.listenfd)
    ensures Valid(n)
  {
    forall k | 1 <= k <= n.counter
      ensures ClientSlot(n, n.slots[k])
    {
      assert n.slots[k] == s.slots[k] || n.slots[k] == s.slots[s.counter];
    }
    forall j, k | 1 <= j < k <= n.counter
      ensures n.slots[j].fd != n.slots[k].fd
    {
      if j == i {
        assert n.slots[j] == s.slots[s.counter];
      } else if k == i {
        assert n.slots[k] == s.slots[s.counter];
      }
    }
  }

  lemma HangupKeepsValid(s: State, i: nat)
    requires Valid(s) && 1 <= i <= s.counter
    ensures Valid(Hangup(s, i).next)
  {
    var n := Hangup(s, i).next;
    var victim := s.slots[i - 1].fd;
    forall r | r in n.rooms
      ensures s.listenfd !in n.rooms[r]
    {
      assert n.rooms[r] == Members(n.rooms, r);
      if r != RoomOf(s.users, victim) {
        assert Members(n.rooms, r) == Members(s.rooms, r);
      }
    }
    RemovalKeepsSlots(s, i, n);
  }

  lemma ReadErrorKeepsValid(s: State, i: nat)
    requires Valid(s) && 1 <= i <= s.counter
    ensures Valid(ReadError(s, i).next)
  {
    RemovalKeepsSlots(s, i, ReadError(s, i).next);
  }

  lemma EnterKeepsValid(s: State, fd: int, room: string)
    requires Valid(s) && fd != s.listenfd
    ensures Valid(EnterRoom(s, fd, room))
  {
    var n := EnterRoom(s, fd, room);
    forall r | r in n.rooms
      ensures s.listenfd !in n.rooms[r]
    {
      assert n.rooms[r] == Members(n.rooms, r);
    }
  }

  lemma QuitKeepsValid(s: State, i: nat, room: string)
    requires Valid(s) && 1 <= i <= s.counter
    ensures Valid(QuitRoom(s, i, room))
  {
    var n := QuitRoom(s, i, room);
    var fd := s.slots[i].fd;
    if fd in Members(s.rooms, room) {
      forall r | r in n.rooms
        ensures s.listenfd !in n.rooms[r]
      {
        assert n.rooms[r] == Members(n.rooms, r);
      }
    } else {
      HasMonotone(s.slots[i].events, n.slots[i].events);
    }
  }

  /** Gaining bits keeps every client flag. */
  lemma HasMonotone(old_events: Events, new_events: Events)
    requires Has(new_events, old_events | POLLOUT) || Has(new_events, old_events | POLLIN) || Has(new_events, old_events)
    requires Has(old_events, CLIENT_EVENTS)
    ensures Has(new_events, CLIENT_EVENTS)
  {
  }

  lemma BroadcastKeepsValid(s: State, i: nat, payload: string)
    requires Valid(s) && 1 <= i <= s.counter && Deliverable(s, i)
    ensures Valid(Broadcast(s, i, payload))
  {
    var n := Broadcast(s, i, payload);
    var room := Members(s.rooms, RoomOf(s.users, s.slots[i].fd));
    assert s.listenfd !in room;
    assert n.slots[0] == s.slots[0];
    forall k | 1 <= k <= n.counter
      ensures ClientSlot(n, n.slots[k])
    {
      assert n.slots[k].fd == Fds(n.slots)[k] == Fds(s.slots)[k];
      HasMonotone(s.slots[k].events, n.slots[k].events);
    }
    forall j, k | 1 <= j < k <= n.counter
      ensures n.slots[j].fd != n.slots[k].fd
    {
      assert n.slots[j].fd == Fds(s.slots)[j] && n.slots[k].fd == Fds(s.slots)[k];
    }
  }

  lemma ReceiveKeepsValid(s: State, i: nat, bytes: seq<char>)
    requires Valid(s) && 1 <= i <= s.counter
    requires Classify(CString(bytes)).Chat? ==> Deliverable(s, i)
    ensures Valid(Receive(s, i, bytes))
  {
    match Classify(CString(bytes))
    case Enter(room) => EnterKeepsValid(s, s.slots[i].fd, room);
    case Quit(room) => QuitKeepsValid(s, i, room);
    case Chat(payload) => BroadcastKeepsValid(s, i, payload);
  }

  lemma FlushKeepsValid(s: State, i: nat)
    requires Valid(s) && 1 <= i <= s.counter
    ensures Valid(Flush(s, i).next)
  {
    var n := Flush(s, i).next;
    if n != s {
      HasMonotone(s.slots[i].events, n.slots[i].events);
    }
  }

  /**
   * Every pass of the loop body keeps the invariant, given the kernel
   * hands out a descriptor that is not already in use.
   */
  lemma DispatchKeepsValid(s: State, i: nat, revents: Events, io: Io)
    requires Valid(s) && i <= s.counter
    requires Reportable(revents, s.slots[i].events)
    requires io.received.Data? ==> 1 <= |io.received.bytes| < BUFFER_SIZE
    requires ReadsChat(s, i, revents, io) ==> Deliverable(s, i)
    requires io.accepted >= 0 ==> Fresh(s, io.accepted)
    ensures Valid(Dispatch(s, i, revents, io).next)
    ensures Dispatch(s, i, revents, io).next.counter <= USER_LIMIT
  {
    if s.slots[i].fd == s.listenfd && Has(revents, POLLIN) {
      if io.accepted >= 0 {
        AcceptKeepsValid(s, io.accepted);
      }
    } else if Has(revents, POLLERR) {
    } else if Has(revents, POLLRDHUP) {
      HangupKeepsValid(s, i);
    } else if Has(revents, POLLIN) {
      match io.received
      case Failed(wouldBlock) =>
        if !wouldBlock {
          ReadErrorKeepsValid(s, i);
        }
      case Closed =>
      case Data(bytes) =>
        ReceiveKeepsValid(s, i, bytes);
    } else if Has(revents, POLLOUT) {
      FlushKeepsValid(s, i);
    }
  }

  /** Admission lists the new client in the public room, which `user_map` names. */
  lemma AcceptKeepsListed(s: State, connfd: int)
    requires WellFormed(s) && Listed(s.rooms, s.users)
    ensures Listed(Accept(s, connfd).next.rooms, Accept(s, connfd).next.users)
  {
    var n := Accept(s, connfd).next;
    if s.counter < USER_LIMIT {
      forall fd | fd in n.users
        ensures fd in Members(n.rooms, n.users[fd])
      {
        if fd != connfd && n.users[fd] == PUBLIC_ROOM {
          assert fd in Members(s.rooms, PUBLIC_ROOM);
        }
      }
    }
  }

  /** The hangup cleanup drops a descriptor from both maps together. */
  lemma HangupKeepsListed(s: State, i: nat)
    requires WellFormed(s) && 1 <= i <= s.counter && Listed(s.rooms, s.users)
    ensures Listed(Hangup(s, i).next.rooms, Hangup(s, i).next.users)
  {
    var n := Hangup(s, i).next;
    var victim := s.slots[i - 1].fd;
    forall fd | fd in n.users
      ensures fd in Members(n.rooms, n.users[fd])
    {
      assert fd != victim && n.users[fd] == s.users[fd];
      assert fd in Members(s.rooms, s.users[fd]);
    }
  }

  /** The read-error path leaves both maps untouched. */
  lemma ReadErrorKeepsListed(s: State, i: nat)
    requires WellFormed(s) && 1 <= i <= s.counter && Listed(s.rooms, s.users)
    ensures Listed(ReadError(s, i).next.rooms, ReadError(s, i).next.users)
  {
  }

  /** Entering any room but the public one keeps every descriptor listed where `user_map` says. */
  lemma EnterKeepsListed(s: State, fd: int, room: string)
    requires Listed(s.rooms, s.users) && room != PUBLIC_ROOM
    ensures Listed(EnterRoom(s, fd, room).rooms, EnterRoom(s, fd, room).users)
  {
    var n := EnterRoom(s, fd, room);
    forall g | g in n.users
      ensures g in Members(n.rooms, n.users[g])
    {
      if g != fd {
        assert g in Members(s.rooms, s.users[g]);
      }
    }
  }

  /** Quitting any room but the public one keeps every descriptor listed where `user_map` says. */
  lemma QuitKeepsListed(s: State, i: nat, room: string)
    requires WellFormed(s) && 1 <= i <= s.counter
    requires Listed(s.rooms, s.users) && room != PUBLIC_ROOM
    ensures Listed(QuitRoom(s, i, room).rooms, QuitRoom(s, i, room).users)
  {
    var n := QuitRoom(s, i, room);
    var fd := s.slots[i].fd;
    if fd in Members(s.rooms, room) {
      forall g | g in n.users
        ensures g in Members(n.rooms, n.users[g])
      {
        if g != fd {
          assert g in Members(s.rooms, s.users[g]);
        }
      }
    }
  }

  /** The received text is a join or leave command naming the public room. */
  predicate NamesPublicRoom(s: State, i: nat, revents: Events, io: Io)
    requires WellFormed(s) && i <= s.counter
  {
    && !(s.slots[i].fd == s.listenfd && Has(revents, POLLIN))
    && !Has(revents, POLLERR) && !Has(revents, POLLRDHUP) && Has(revents, POLLIN)
    && io.received.Data?
    && var c := Classify(CString(io.received.bytes));
       (c.Enter? || c.Quit?) && c.room == PUBLIC_ROOM
  }

  /**
   * `Listed` survives every pass of the loop body except a join or leave
   * command that names the public room.
   */
  lemma DispatchKeepsListed(s: State, i: nat, revents: Events, io: Io)
    requires Valid(s) && i <= s.counter
    requires Reportable(revents, s.slots[i].events)
    requires io.received.Data? ==> 1 <= |io.received.bytes| < BUFFER_SIZE
    requires ReadsChat(s, i, revents, io) ==> Deliverable(s, i)
    requires Listed(s.rooms, s.users)
    requires !NamesPublicRoom(s, i, revents, io)
    ensures Listed(Dispatch(s, i, revents, io).next.rooms, Dispatch(s, i, revents, io).next.users)
  {
    if s.slots[i].fd == s.listenfd && Has(revents, POLLIN) {
      if io.accepted >= 0 {
        AcceptKeepsListed(s, io.accepted);
      }
    } else if Has(revents, POLLERR) {
    } else if Has(revents, POLLRDHUP) {
      HangupKeepsListed(s, i);
    } else if Has(revents, POLLIN) {
      match io.received
      case Failed(wouldBlock) =>
        if !wouldBlock {
          ReadErrorKeepsListed(s, i);
        }
      case Closed =>
      case Data(bytes) =>
        match Classify(CString(bytes))
        case Enter(room) => EnterKeepsListed(s, s.slots[i].fd, room);
        case Quit(room) => QuitKeepsListed(s, i, room);
        case Chat(payload) =>
    }
  }
}

=== FILE: rooms.dfy ===
/**
 * The room directory: `room_map` (room name to member vector) and
 * `user_map` (descriptor to room name). Both are read with `operator[]`,
 * which yields an empty vector or an empty string for a missing key; the
 * program never tells a missing key from one holding that default, so the
 * model reads absent keys as the default.
 */
module Rooms {
  import opened Vectors

  const PUBLIC_ROOM: string := "public_room"

  type RoomMap = map<string, seq<int>>
  type UserMap = map<int, string>

  /** `room_map[name]` */
  function Members(rooms: RoomMap, name: string): seq<int> {
    if name in rooms then rooms[name] else []
  }

  /** `user_map[fd]` */
  function RoomOf(users: UserMap, fd: int): string {
    if fd in users then users[fd] else ""
  }

  /** `room_map[name].push_back(fd)` */
  function Join(rooms: RoomMap, name: string, fd: int): (r: RoomMap)
    ensures Members(r, name) == Members(rooms, name) + [fd]
    ensures forall n :: n != name ==> Members(r, n) == Members(rooms, n)
  {
    rooms[name := Members(rooms, name) + [fd]]
  }

  /** `vectorerase(fd, room_map[name])` */
  function Leave(rooms: RoomMap, name: string, fd: int): (r: RoomMap)
    ensures fd !in Members(r, name)
    ensures Members(r, name) == Erase(fd, Members(rooms, name))
    ensures forall n :: n != name ==> Members(r, n) == Members(rooms, n)
  {
    rooms[name := Erase(fd, Members(rooms, name))]
  }

  /** Every descriptor in `user_map` is listed in the room it is mapped to. */
  ghost predicate Listed(rooms: RoomMap, users: UserMap) {
    forall fd :: fd in users ==> fd in Members(rooms, users[fd])
  }

  /** No room lists `fd`. */
  ghost predicate Unlisted(rooms: RoomMap, fd: int) {
    forall n :: n in rooms ==> fd !in rooms[n]
  }
}

=== FILE: scenarios.dfy ===
/** Short runs of the model: connect and enter, a refused leave, a chat between roommates, a full server. */
module Scenarios {
  import opened Wrappers
  import opened Vectors
  import opened Interest
  import opened Slots
  import opened Rooms
  import opened Commands
  import opened Server

  /** A client connects and joins the public room, then enters `alpha`. */
  lemma ConnectThenEnter()
    ensures var s1 := Accept(Init(3), 4).next;
      && Members(s1.rooms, PUBLIC_ROOM) == [4] && s1.counter == 1 && s1.slots[1].fd == 4
      && var s2 := Receive(s1, 1, "Enter the room:alpha");
         Members(s2.rooms, "alpha") == [4] && Members(s2.rooms, PUBLIC_ROOM) == [] && RoomOf(s2.users, 4) == "alpha"
  {
    var s1 := Accept(Init(3), 4).next;
    assert Members(s1.rooms, PUBLIC_ROOM) == [] + [4];
    EnterAlpha(s1, "Enter the room:alpha");
  }

  lemma EnterAlpha(s1: State, text: string)
    requires text == "Enter the room:alpha"
    requires WellFormed(s1) && 1 <= s1.counter && s1.slots[1].fd == 4
    requires Members(s1.rooms, PUBLIC_ROOM) == [4] && Members(s1.rooms, "alpha") == []
    ensures var s2 := Receive(s1, 1, text);
      Members(s2.rooms, "alpha") == [4] && Members(s2.rooms, PUBLIC_ROOM) == [] && RoomOf(s2.users, 4) == "alpha"
  {
    ReadsEnterAlpha(text);
    var s2 := Receive(s1, 1, text);
    assert s2 == EnterRoom(s1, 4, "alpha");
    assert "alpha" != PUBLIC_ROOM;
    assert Members(s2.rooms, PUBLIC_ROOM) == Erase(4, [4]);
  }

  /** The line `Enter the room:alpha`, read from the buffer, is a request to enter `alpha`. */
  lemma ReadsEnterAlpha(text: string)
    requires text == "Enter the room:alpha"
    ensures Classify(CString(text)) == Enter("alpha")
  {
    CStringWhole(text);
    assert Classify(text) == Enter("alpha") by {
      ClassifyRender(Enter("alpha"));
      assert Render(Enter("alpha")) == text;
    }
  }

  /** Client 4, alone in `alpha`. */
  function AloneInAlpha(): (s: State)
    ensures WellFormed(s)
  {
    State(3, [Slot(3, LISTEN_EVENTS), Slot(4, CLIENT_EVENTS)] + seq(4, _ => Slot(-1, 0)),
      1, map["alpha" := [4]], map[4 := "alpha"], map[])
  }

  /** Quitting a room one is not in stages the warning and changes no membership. */
  lemma QuitOtherRoomWarns()
    ensures var s := Receive(AloneInAlpha(), 1, "Quit the room:beta");
      && PendingOf(s.pending, 4) == Some(NOT_IN_ROOM)
      && Members(s.rooms, "alpha") == [4] && RoomOf(s.users, 4) == "alpha"
      && Flush(s, 1).sent == Some(Packet(4, "Warning:You are not in this room"))
  {
    QuitBeta(AloneInAlpha(), "Quit the room:beta");
  }

  lemma QuitBeta(s0: State, text: string)
    requires text == "Quit the room:beta"
    requires WellFormed(s0) && 1 <= s0.counter && s0.slots[1].fd == 4 && Members(s0.rooms, "beta") == []
    ensures var s := Receive(s0, 1, text);
      && s.rooms == s0.rooms && s.users == s0.users
      && PendingOf(s.pending, 4) == Some(NOT_IN_ROOM)
      && Flush(s, 1).sent == Some(Packet(4, "Warning:You are not in this room"))
  {
    ReadsQuitBeta(text);
    var s := Receive(s0, 1, text);
    assert s == QuitRoom(s0, 1, "beta");
  }

  /** The line `Quit the room:beta`, read from the buffer, is a request to leave `beta`. */
  lemma ReadsQuitBeta(text: string)
    requires text == "Quit the room:beta"
    ensures Classify(CString(text)) == Quit("beta")
  {
    CStringWhole(text);
    assert Classify(text) == Quit("beta") by {
      ClassifyRender(Quit("beta"));
      assert Render(Quit("beta")) == text;
    }
  }

  /** Clients 4 and 5, both in `alpha`. */
  function PairInAlpha(): (s: State)
    ensures WellFormed(s)
  {
    State(3, [Slot(3, LISTEN_EVENTS), Slot(4, CLIENT_EVENTS), Slot(5, CLIENT_EVENTS)] + seq(3, _ => Slot(-1, 0)),
      2, map["alpha" := [4, 5]], map[4 := "alpha", 5 := "alpha"], map[])
  }

  /** A chat line reaches the other member of the room and not the sender. */
  lemma ChatReachesRoommate()
    ensures Deliverable(PairInAlpha(), 1)
    ensures var s := Receive(PairInAlpha(), 1, "hello");
      && PendingOf(s.pending, 5) == Some("hello")
      && PendingOf(s.pending, 4) == None
      && Flush(s, 2).sent == Some(Packet(5, "hello"))
      && Flush(s, 1).sent == None
  {
    var s0 := PairInAlpha();
    assert Fds(s0.slots)[2] == 5;
    CStringWhole("hello");
    assert Classify("hello") == Chat("hello") by {
      assert !StartsWith("hello", ENTER_PREFIX) && !StartsWith("hello", QUIT_PREFIX);
    }
  }

  /** With every client slot taken, a new connection is told so and closed. */
  lemma FullServerRejects(s: State, connfd: int)
    requires WellFormed(s) && s.counter == USER_LIMIT
    ensures Accept(s, connfd) == Step(s, Some(Packet(connfd, "too many users\n")), Some(connfd))
  {
  }
}

=== FILE: server.dfy ===
/**
 * The event loop of `main` in mytalk_server.cpp as a state machine; line
 * numbers in the comments refer to that file. Each transition is
 * one pass of the loop body for one ready slot; the outcomes of the kernel
 * calls (`accept`, `recv`) arrive as inputs.
 */
module Server {
  import opened Wrappers
  import opened Vectors
  import opened Interest
  import opened Slots
  import opened Rooms
  import opened Commands

  const TOO_MANY_USERS: string := "too many users\n"
  const NOT_IN_ROOM: string := "Warning:You are not in this room"

  /** `users[fd].write_buf` for every descriptor; a missing key is a null pointer. */
  type Pending = map<int, Option<string>>

  datatype State = State(
    listenfd: int,
    slots: seq<Slot>,
    counter: nat,
    rooms: RoomMap,
    users: UserMap,
    pending: Pending)

  datatype Packet = Packet(fd: int, data: string)

  /** The outcome of one event: the next state, what was sent, which descriptor was closed. */
  datatype Step = Step(next: State, sent: Option<Packet>, closed: Option<int>)

  /** What `recv` returned. */
  datatype Recv =
    | Data(bytes: seq<char>)        // a positive count; the bytes that arrived
    | Closed                        // zero
    | Failed(wouldBlock: bool)      // negative, with `errno == EAGAIN` or not

  /** Kernel results available to one pass of the loop body. */
  datatype Io = Io(accepted: int, received: Recv)

  function PendingOf(p: Pending, fd: int): Option<string> {
    if fd in p then p[fd] else None
  }

  /** Shape of the slot array and the counter bound. */
  predicate WellFormed(s: State) {
    |s.slots| == USER_LIMIT + 1 && s.counter <= USER_LIMIT
  }

  /** An occupied client slot: a real descriptor other than the listener, still watched for input and hangup. */
  ghost predicate ClientSlot(s: State, slot: Slot) {
    slot.fd >= 0 && slot.fd != s.listenfd && Has(slot.events, CLIENT_EVENTS)
  }

  /** The invariant kept between passes of the loop body. */
  ghost predicate Valid(s: State) {
    && WellFormed(s)
    && s.listenfd >= 0
    && s.slots[0] == Slot(s.listenfd, LISTEN_EVENTS)
    && (forall k :: 1 <= k <= s.counter ==> ClientSlot(s, s.slots[k]))
    && (forall j, k :: 1 <= j < k <= s.counter ==> s.slots[j].fd != s.slots[k].fd)
    && Unlisted(s.rooms, s.listenfd)
  }

  /** A descriptor the kernel may hand out: not the listener and not a connected client. */
  predicate Fresh(s: State, fd: int)
    requires WellFormed(s)
  {
    fd >= 0 && fd != s.listenfd && fd !in ActiveFds(s.slots, s.counter)
  }

  /** Lines 87-99: the state before the first poll. */
  function Init(listenfd: int): (s: State)
    requires listenfd >= 0
    ensures Valid(s)
    ensures s.counter == 0 && s.slots[0].fd == listenfd
    ensures forall n :: Members(s.rooms, n) == []
    ensures forall fd :: RoomOf(s.users, fd) == "" && PendingOf(s.pending, fd) == None
  {
    State(listenfd, InitSlots(listenfd), 0, map[], map[], map[])
  }

  /**
   * Lines 123-139: admission of the connection `connfd` returned by
   * `accept`. At capacity the notice is sent, the connection closed and the
   * state left alone; otherwise the client takes slot `user_counter + 1` and
   * joins the public room.
   */
  function Accept(s: State, connfd: int): (st: Step)
    requires WellFormed(s)
    ensures WellFormed(st.next)
    ensures s.counter >= USER_LIMIT ==> st == Step(s, Some(Packet(connfd, TOO_MANY_USERS)), Some(connfd))
    ensures s.counter < USER_LIMIT ==>
      && st.sent == None && st.closed == None
      && st.next.counter == s.counter + 1
      && st.next.slots[st.next.counter] == Slot(connfd, CLIENT_EVENTS)
      && (forall k :: 0 <= k < |s.slots| && k != st.next.counter ==> st.next.slots[k] == s.slots[k])
      && Members(st.next.rooms, PUBLIC_ROOM) == Members(s.rooms, PUBLIC_ROOM) + [connfd]
      && (forall n :: n != PUBLIC_ROOM ==> Members(st.next.rooms, n) == Members(s.rooms, n))
      && st.next.users == s.users[connfd := PUBLIC_ROOM]
      && st.next.pending == s.pending
      && st.next.listenfd == s.listenfd
  {
    if s.counter >= USER_LIMIT then
      Step(s, Some(Packet(connfd, TOO_MANY_USERS)), Some(connfd))
    else
      var slot := s.counter + 1;
      var next := s.(
        counter := slot,
        slots := s.slots[slot := Slot(connfd, CLIENT_EVENTS)],
        rooms := Join(s.rooms, PUBLIC_ROOM, connfd),
        users := s.users[connfd := PUBLIC_ROOM]);
      Step(next, None, None)
  }

  /** `users[to] = users[from]`: the whole client record, pending write included, is copied. */
  function CopyClient(p: Pending, to: int, from: int): (r: Pending)
    ensures PendingOf(r, to) == PendingOf(p, from)
    ensures forall fd :: fd != to ==> PendingOf(r, fd) == PendingOf(p, fd)
  {
    p[to := PendingOf(p, from)]
  }

  /**
   * Lines 155-165: hangup of the client in slot `i`. The record and slot of
   * the last client move into place and the counter drops; the cleanup then
   * runs after `i--`, so it takes the descriptor of slot `i - 1` out of its
   * room and out of `user_map`, and the departed descriptor stays listed.
   */
  function Hangup(s: State, i: nat): (st: Step)
    requires WellFormed(s) && 1 <= i <= s.counter
    ensures WellFormed(st.next) && st.next.listenfd == s.listenfd
    ensures st.closed == Some(s.slots[i].fd) && st.sent == None
    ensures st.next.counter == s.counter - 1
    ensures st.next.slots[0] == s.slots[0]
    ensures |st.next.slots| == |s.slots| && st.next.slots[i] == s.slots[s.counter]
    ensures forall k :: 0 <= k < |s.slots| && k != i ==> st.next.slots[k] == s.slots[k]
    ensures multiset(ActiveFds(st.next.slots, st.next.counter))
         == multiset(ActiveFds(s.slots, s.counter)) - multiset{s.slots[i].fd}
    ensures var victim := s.slots[i - 1].fd;
      && victim !in st.next.users
      && victim !in Members(st.next.rooms, RoomOf(s.users, victim))
      && Members(st.next.rooms, RoomOf(s.users, victim)) == Erase(victim, Members(s.rooms, RoomOf(s.users, victim)))
      && (forall n :: n != RoomOf(s.users, victim) ==> Members(st.next.rooms, n) == Members(s.rooms, n))
      && (forall fd :: fd != victim ==> (fd in st.next.users <==> fd in s.users))
      && (forall fd :: fd in st.next.users ==> st.next.users[fd] == s.users[fd])
    ensures PendingOf(st.next.pending, s.slots[i].fd) == PendingOf(s.pending, s.slots[s.counter].fd)
    ensures forall fd :: fd != s.slots[i].fd ==> PendingOf(st.next.pending, fd) == PendingOf(s.pending, fd)
  {
    var departed := s.slots[i].fd;
    var slots := RemoveSlot(s.slots, s.counter, i);
    var victim := slots[i - 1].fd;
    var room := RoomOf(s.users, victim);
    var next := s.(
      pending := CopyClient(s.pending, departed, s.slots[s.counter].fd),
      slots := slots,
      counter := s.counter - 1,
      rooms := Leave(s.rooms, room, victim),
      users := s.users - {victim});
    Step(next, None, Some(departed))
  }

  /**
   * Lines 174-184: a failed read other than "would block" closes the
   * connection and swap-removes its slot, but leaves the room directory as it is.
   */
  function ReadError(s: State, i: nat): (st: Step)
    requires WellFormed(s) && 1 <= i <= s.counter
    ensures WellFormed(st.next) && st.next.listenfd == s.listenfd
    ensures st.closed == Some(s.slots[i].fd) && st.sent == None
    ensures st.next.counter == s.counter - 1
    ensures st.next.slots[0] == s.slots[0]
    ensures |st.next.slots| == |s.slots| && st.next.slots[i] == s.slots[s.counter]
    ensures forall k :: 0 <= k < |s.slots| && k != i ==> st.next.slots[k] == s.slots[k]
    ensures multiset(ActiveFds(st.next.slots, st.next.counter))
         == multiset(ActiveFds(s.slots, s.counter)) - multiset{s.slots[i].fd}
    ensures st.next.rooms == s.rooms && st.next.users == s.users
    ensures PendingOf(st.next.pending, s.slots[i].fd) == PendingOf(s.pending, s.slots[s.counter].fd)
    ensures forall fd :: fd != s.slots[i].fd ==> PendingOf(st.next.pending, fd) == PendingOf(s.pending, fd)
  {
    var departed := s.slots[i].fd;
    var next := s.(
      pending := CopyClient(s.pending, departed, s.slots[s.counter].fd),
      slots := RemoveSlot(s.slots, s.counter, i),
      counter := s.counter - 1);
    Step(next, None, Some(departed))
  }

  /**
   * Lines 194-201: `fd` joins `room`, then every occurrence of `fd` is erased
   * from the public room only. Entering the public room itself therefore
   * leaves `fd` listed nowhere new.
   */
  function EnterRoom(s: State, fd: int, room: string): (r: State)
    ensures r.slots == s.slots && r.counter == s.counter && r.listenfd == s.listenfd
    ensures r.pending == s.pending
    ensures r.users == s.users[fd := room]
    ensures Members(r.rooms, PUBLIC_ROOM) == Erase(fd, Members(s.rooms, PUBLIC_ROOM))
    ensures room != PUBLIC_ROOM ==> Members(r.rooms, room) == Members(s.rooms, room) + [fd]
    ensures forall n :: n != room && n != PUBLIC_ROOM ==> Members(r.rooms, n) == Members(s.rooms, n)
  {
    var joined := Join(s.rooms, room, fd);
    EraseAppended(fd, Members(s.rooms, PUBLIC_ROOM));
    s.(rooms := Leave(joined, PUBLIC_ROOM, fd), users := s.users[fd := room])
  }

  /**
   * Lines 203-220: the client in slot `i` asks to leave `room`. A member is
   * appended to the public room and then erased from `room`; a non-member
   * gets the warning staged and its slot switched to write-watch.
   */
  function QuitRoom(s: State, i: nat, room: string): (r: State)
    requires WellFormed(s) && 1 <= i <= s.counter
    ensures r.counter == s.counter && r.listenfd == s.listenfd && |r.slots| == |s.slots|
    ensures var fd := s.slots[i].fd;
      if fd in Members(s.rooms, room) then
        && r.slots == s.slots && r.pending == s.pending
        && r.users == s.users[fd := PUBLIC_ROOM]
        && fd !in Members(r.rooms, room)
        && (room != PUBLIC_ROOM ==>
              && Members(r.rooms, PUBLIC_ROOM) == Members(s.rooms, PUBLIC_ROOM) + [fd]
              && Members(r.rooms, room) == Erase(fd, Members(s.rooms, room)))
        && (room == PUBLIC_ROOM ==> Members(r.rooms, PUBLIC_ROOM) == Erase(fd, Members(s.rooms, PUBLIC_ROOM)))
        && (forall n :: n != room && n != PUBLIC_ROOM ==> Members(r.rooms, n) == Members(s.rooms, n))
      else
        && r.rooms == s.rooms && r.users == s.users
        && PendingOf(r.pending, fd) == Some(NOT_IN_ROOM)
        && (forall g :: g != fd ==> PendingOf(r.pending, g) == PendingOf(s.pending, g))
        && r.slots[i].fd == fd
        && Has(r.slots[i].events, s.slots[i].events | POLLOUT)
        && (forall k :: 0 <= k < |s.slots| && k != i ==> r.slots[k] == s.slots[k])
  {
    var fd := s.slots[i].fd;
    if fd in Members(s.rooms, room) then
      var moved := Join(s.rooms, PUBLIC_ROOM, fd);
      EraseAppended(fd, Members(s.rooms, PUBLIC_ROOM));
      s.(rooms := Leave(moved, room, fd), users := s.users[fd := PUBLIC_ROOM])
    else
      var slot := s.slots[i];
      s.(slots := s.slots[i := slot.(events := WatchWrite(slot.events))],
         pending := s.pending[fd := Some(NOT_IN_ROOM)])
  }

  /**
   * The loop of lines 226-240 over the member vector `targets`: each member
   * other than the sender gets `payload` staged, and the first slot holding
   * it is switched to write-watch.
   */
  function Stage(slots: seq<Slot>, pending: Pending, targets: seq<int>, sender: int, payload: string)
    : (r: (seq<Slot>, Pending))
    requires forall j :: j in targets && j != sender ==> j in Fds(slots)
    ensures Fds(r.0) == Fds(slots)
    ensures forall k :: 0 <= k < |slots| ==> Has(r.0[k].events, slots[k].events)
    ensures forall k :: 0 <= k < |slots| && (slots[k].fd !in targets || slots[k].fd == sender) ==> r.0[k] == slots[k]
    ensures forall k :: 0 <= k < |slots| && k != FirstSlot(Fds(slots), slots[k].fd) ==> r.0[k] == slots[k]
    ensures forall j :: j in targets && j != sender ==> Has(r.0[FirstSlot(Fds(slots), j)].events, POLLOUT)
    ensures forall j :: j in targets && j != sender ==> PendingOf(r.1, j) == Some(payload)
    ensures forall j :: j !in targets || j == sender ==> PendingOf(r.1, j) == PendingOf(pending, j)
    decreases |targets|
  {
    if |targets| == 0 then (slots, pending)
    else
      var j := targets[0];
      assert forall x :: x in targets[1..] ==> x in targets;
      if j == sender then
        Stage(slots, pending, targets[1..], sender, payload)
      else
        var k := FirstSlot(Fds(slots), j);
        var slots' := slots[k := slots[k].(events := WatchWrite(slots[k].events))];
        assert Fds(slots') == Fds(slots);
        Stage(slots', pending[j := Some(payload)], targets[1..], sender, payload)
  }

  /** Every member to be written to has a slot for the linear search to find. */
  predicate Deliverable(s: State, i: nat)
    requires WellFormed(s) && i <= s.counter
  {
    forall j :: j in Members(s.rooms, RoomOf(s.users, s.slots[i].fd)) && j != s.slots[i].fd ==> j in Fds(s.slots)
  }

  /**
   * Lines 222-240: an ordinary message from the client in slot `i` is staged
   * for every other member of the sender's room (as `user_map` records it).
   */
  function Broadcast(s: State, i: nat, payload: string): (r: State)
    requires WellFormed(s) && 1 <= i <= s.counter && Deliverable(s, i)
    ensures r.counter == s.counter && r.listenfd == s.listenfd
    ensures r.rooms == s.rooms && r.users == s.users
    ensures Fds(r.slots) == Fds(s.slots)
    ensures var room := Members(s.rooms, RoomOf(s.users, s.slots[i].fd));
      && (forall j :: j in room && j != s.slots[i].fd ==> PendingOf(r.pending, j) == Some(payload))
      && (forall j :: j !in room || j == s.slots[i].fd ==> PendingOf(r.pending, j) == PendingOf(s.pending, j))
      && (forall j :: j in room && j != s.slots[i].fd ==> Has(r.slots[FirstSlot(Fds(s.slots), j)].events, POLLOUT))
      && (forall k :: 0 <= k < |s.slots| && (s.slots[k].fd !in room || s.slots[k].fd == s.slots[i].fd) ==> r.slots[k] == s.slots[k])
    ensures forall k :: 0 <= k < |s.slots| && k != FirstSlot(Fds(s.slots), s.slots[k].fd) ==> r.slots[k] == s.slots[k]
    ensures forall k :: 0 <= k < |s.slots| ==> Has(r.slots[k].events, s.slots[k].events)
  {
    var fd := s.slots[i].fd;
    var staged := Stage(s.slots, s.pending, Members(s.rooms, RoomOf(s.users, fd)), fd, payload);
    s.(slots := staged.0, pending := staged.1)
  }

  /** Lines 170-242: what a successful read does with the received bytes. */
  function Receive(s: State, i: nat, bytes: seq<char>): (r: State)
    requires WellFormed(s) && 1 <= i <= s.counter
    requires Classify(CString(bytes)).Chat? ==> Deliverable(s, i)
    ensures r.counter == s.counter && r.listenfd == s.listenfd
    ensures Fds(r.slots) == Fds(s.slots)
    ensures !Classify(CString(bytes)).Chat? ==> forall g :: g != s.slots[i].fd ==> PendingOf(r.pending, g) == PendingOf(s.pending, g)
    ensures Classify(CString(bytes)).Enter? ==> r.slots == s.slots && r.pending == s.pending
    ensures Classify(CString(bytes)).Chat? ==> r.rooms == s.rooms && r.users == s.users
    ensures var c, fd := Classify(CString(bytes)), s.slots[i].fd;
      c.Enter? ==>
        && RoomOf(r.users, fd) == c.room
        && fd !in Members(r.rooms, PUBLIC_ROOM)
        && (c.room != PUBLIC_ROOM ==> Members(r.rooms, c.room) == Members(s.rooms, c.room) + [fd])
        && (forall n :: n != c.room && n != PUBLIC_ROOM ==> Members(r.rooms, n) == Members(s.rooms, n))
    ensures var c, fd := Classify(CString(bytes)), s.slots[i].fd;
      c.Quit? && fd in Members(s.rooms, c.room) ==>
        && RoomOf(r.users, fd) == PUBLIC_ROOM
        && fd !in Members(r.rooms, c.room)
        && (c.room != PUBLIC_ROOM ==> Members(r.rooms, PUBLIC_ROOM) == Members(s.rooms, PUBLIC_ROOM) + [fd])
        && (forall n :: n != c.room && n != PUBLIC_ROOM ==> Members(r.rooms, n) == Members(s.rooms, n))
        && r.pending == s.pending && r.slots == s.slots
    ensures var c, fd := Classify(CString(bytes)), s.slots[i].fd;
      c.Quit? && fd !in Members(s.rooms, c.room) ==>
        && r.rooms == s.rooms && r.users == s.users
        && PendingOf(r.pending, fd) == Some(NOT_IN_ROOM)
        && Has(r.slots[i].events, POLLOUT)
    ensures var c, fd := Classify(CString(bytes)), s.slots[i].fd;
      var room := Members(s.rooms, RoomOf(s.users, fd));
      c.Chat? ==>
        && (forall j :: j in room && j != fd ==> PendingOf(r.pending, j) == Some(CString(bytes)))
        && (forall j :: j in room && j != fd ==> Has(r.slots[FirstSlot(Fds(s.slots), j)].events, POLLOUT))
        && (forall j :: j !in room || j == fd ==> PendingOf(r.pending, j) == PendingOf(s.pending, j))
  {
    match Classify(CString(bytes))
    case Enter(room) => EnterRoom(s, s.slots[i].fd, room)
    case Quit(room) => QuitRoom(s, i, room)
    case Chat(payload) => Broadcast(s, i, payload)
  }

  /**
   * Lines 244-256: a writable client slot sends its pending write, if any,
   * clears it and switches back to read-watch.
   */
  function Flush(s: State, i: nat): (st: Step)
    requires WellFormed(s) && 1 <= i <= s.counter
    ensures st.closed == None
    ensures st.next.counter == s.counter && st.next.listenfd == s.listenfd
    ensures st.next.rooms == s.rooms && st.next.users == s.users
    ensures PendingOf(s.pending, s.slots[i].fd).None? ==> st == Step(s, None, None)
    ensures PendingOf(s.pending, s.slots[i].fd).Some? ==>
      && st.sent == Some(Packet(s.slots[i].fd, PendingOf(s.pending, s.slots[i].fd).value))
      && PendingOf(st.next.pending, s.slots[i].fd) == None
      && (forall g :: g != s.slots[i].fd ==> PendingOf(st.next.pending, g) == PendingOf(s.pending, g))
      && |st.next.slots| == |s.slots|
      && st.next.slots[i].fd == s.slots[i].fd
      && Has(st.next.slots[i].events, s.slots[i].events | POLLIN)
      && (forall k :: 0 <= k < |s.slots| && k != i ==> st.next.slots[k] == s.slots[k])
  {
    var fd := s.slots[i].fd;
    match PendingOf(s.pending, fd)
    case None => Step(s, None, None)
    case Some(data) =>
      var slot := s.slots[i];
      var next := s.(
        pending := s.pending[fd := None],
        slots := s.slots[i := slot.(events := WatchRead(slot.events))]);
      Step(next, Some(Packet(fd, data)), None)
  }

  /** The read branch of the loop body is taken and the received text is ordinary chat. */
  predicate ReadsChat(s: State, i: nat, revents: Events, io: Io)
    requires WellFormed(s) && i <= s.counter
  {
    && !(s.slots[i].fd == s.listenfd && Has(revents, POLLIN))
    && !Has(revents, POLLERR) && !Has(revents, POLLRDHUP) && Has(revents, POLLIN)
    && io.received.Data? && Classify(CString(io.received.bytes)).Chat?
  }

  /**
   * Lines 111-257: one pass of the loop body for slot `i` with readiness
   * `revents`. The listener's input is tried first; every other report on a
   * client slot goes through `ClientEvent`. The listener slot registers only
   * POLLIN and POLLERR, so without input it can only log an error.
   */
  function Dispatch(s: State, i: nat, revents: Events, io: Io): (st: Step)
    requires Valid(s) && i <= s.counter
    requires Reportable(revents, s.slots[i].events)
    requires io.received.Data? ==> 1 <= |io.received.bytes| < BUFFER_SIZE
    requires ReadsChat(s, i, revents, io) ==> Deliverable(s, i)
    ensures WellFormed(st.next) && st.next.listenfd == s.listenfd
    ensures i == 0 ==> st.next.counter >= s.counter && st.next.users.Keys >= s.users.Keys
    ensures st.closed.Some? ==> st.next.counter < s.counter || st.closed == Some(io.accepted)
    ensures Has(revents, POLLERR) && !(i == 0 && Has(revents, POLLIN)) ==> st == Step(s, None, None)
    ensures st.sent.Some? ==>
      || (i == 0 && st.sent.value == Packet(io.accepted, TOO_MANY_USERS))
      || (i >= 1 && st.sent.value.fd == s.slots[i].fd && PendingOf(s.pending, s.slots[i].fd) == Some(st.sent.value.data))
    // the listener: a failed accept does nothing; otherwise admission or the capacity notice
    ensures i == 0 && Has(revents, POLLIN) && io.accepted < 0 ==> st == Step(s, None, None)
    ensures i == 0 && Has(revents, POLLIN) && io.accepted >= 0 && s.counter == USER_LIMIT ==>
      st == Step(s, Some(Packet(io.accepted, TOO_MANY_USERS)), Some(io.accepted))
    ensures i == 0 && Has(revents, POLLIN) && io.accepted >= 0 && s.counter < USER_LIMIT ==>
      && st.next.counter == s.counter + 1 && st.next.slots[st.next.counter] == Slot(io.accepted, CLIENT_EVENTS)
      && RoomOf(st.next.users, io.accepted) == PUBLIC_ROOM && io.accepted in Members(st.next.rooms, PUBLIC_ROOM)
    ensures i == 0 && !Has(revents, POLLIN) ==> st == Step(s, None, None)
    // a client slot: the effects `ClientEvent` states
    ensures i >= 1 ==> st == ClientEvent(s, i, revents, io)
  {
    if s.slots[i].fd == s.listenfd && Has(revents, POLLIN) then
      if io.accepted < 0 then Step(s, None, None) else Accept(s, io.accepted)
    else if i == 0 then
      Step(s, None, None)
    else
      ClientEvent(s, i, revents, io)
  }

  /**
   * Lines 142-257: the branches a client slot can take, in the source's
   * order: error (only logged), hangup, input, output.
   */
  function ClientEvent(s: State, i: nat, revents: Events, io: Io): (st: Step)
    requires Valid(s) && 1 <= i <= s.counter
    requires ReadsChat(s, i, revents, io) ==> Deliverable(s, i)
    ensures WellFormed(st.next) && st.next.listenfd == s.listenfd
    ensures Has(revents, POLLERR) ==> st == Step(s, None, None)
    // a hangup closes the client and removes its slot; the cleanup after `i--`
    // takes the fd of slot `i - 1` out of its room and out of `user_map`
    ensures !Has(revents, POLLERR) && Has(revents, POLLRDHUP) ==>
      var victim := s.slots[i - 1].fd;
      && st.closed == Some(s.slots[i].fd) && st.sent == None
      && st.next.counter == s.counter - 1
      && multiset(ActiveFds(st.next.slots, st.next.counter))
         == multiset(ActiveFds(s.slots, s.counter)) - multiset{s.slots[i].fd}
      && victim !in st.next.users
      && (forall fd :: fd != victim ==> (fd in st.next.users <==> fd in s.users))
      && Members(st.next.rooms, RoomOf(s.users, victim)) == Erase(victim, Members(s.rooms, RoomOf(s.users, victim)))
      && (forall n :: n != RoomOf(s.users, victim) ==> Members(st.next.rooms, n) == Members(s.rooms, n))
    // input: a zero-byte or would-block receive does nothing, a failed read
    // removes the slot but not the directory entries, data goes to `Receive`
    ensures var input := !Has(revents, POLLERR) && !Has(revents, POLLRDHUP) && Has(revents, POLLIN);
      && (input && (io.received.Closed? || io.received == Failed(true)) ==> st == Step(s, None, None))
      && (input && io.received == Failed(false) ==>
            && st.closed == Some(s.slots[i].fd) && st.sent == None
            && st.next.counter == s.counter - 1
            && multiset(ActiveFds(st.next.slots, st.next.counter))
               == multiset(ActiveFds(s.slots, s.counter)) - multiset{s.slots[i].fd}
            && st.next.rooms == s.rooms && st.next.users == s.users)
      && (input && io.received.Data? ==>
            st.sent == None && st.closed == None && st.next == Receive(s, i, io.received.bytes))
    // output: the pending write, if any, is sent and cleared, and input is watched again
    ensures var output := !Has(revents, POLLERR) && !Has(revents, POLLRDHUP) && !Has(revents, POLLIN)
                          && Has(revents, POLLOUT);
      var pending := PendingOf(s.pending, s.slots[i].fd);
      && (output && pending.None? ==> st == Step(s, None, None))
      && (output && pending.Some? ==>
            && st.sent == Some(Packet(s.slots[i].fd, pending.value)) && st.closed == None
            && PendingOf(st.next.pending, s.slots[i].fd) == None
            && st.next.slots[i].fd == s.slots[i].fd && Has(st.next.slots[i].events, POLLIN)
            && st.next.rooms == s.rooms && st.next.users == s.users)
    // any other report is ignored
    ensures revents & (POLLERR | POLLRDHUP | POLLIN | POLLOUT) == 0 ==> st == Step(s, None, None)
  {
    if Has(revents, POLLERR) then
      Step(s, None, None)
    else if Has(revents, POLLRDHUP) then
      Hangup(s, i)
    else if Has(revents, POLLIN) then
      match io.received
      case Failed(wouldBlock) => if wouldBlock then Step(s, None, None) else ReadError(s, i)
      case Closed => Step(s, None, None)
      case Data(bytes) => Step(Receive(s, i, bytes), None, None)
    else if Has(revents, POLLOUT) then
      Flush(s, i)
    else
      Step(s, None, None)
  }

  /** A second flush with nothing staged in between does nothing. */
  lemma FlushIdempotent(s: State, i: nat)
    requires WellFormed(s) && 1 <= i <= s.counter
    ensures WellFormed(Flush(s, i).next)
    ensures Flush(Flush(s, i).next, i) == Step(Flush(s, i).next, None, None)
  {
  }
}

=== FILE: slots.dfy ===
/**
 * The poll slot table: `USER_LIMIT + 1` entries, slot 0 for the listener,
 * slots 1..user_counter for the connected clients.
 */
module Slots {
  import opened Interest

  const USER_LIMIT: nat := 5

  datatype Slot = Slot(fd: int, events: Events)

  /** The descriptor column of a slot table. */
  function Fds(slots: seq<Slot>): (r: seq<int>)
    ensures |r| == |slots|
    ensures forall k :: 0 <= k < |slots| ==> r[k] == slots[k].fd
  {
    seq(|slots|, k requires 0 <= k < |slots| => slots[k].fd)
  }

  /** The descriptors of the client slots 1..counter. */
  function ActiveFds(slots: seq<Slot>, counter: nat): (r: seq<int>)
    requires counter < |slots|
    ensures |r| == counter
    ensures forall k :: 1 <= k <= counter ==> r[k - 1] == slots[k].fd
    ensures r == Fds(slots)[1..counter + 1]
  {
    Fds(slots[1..counter + 1])
  }

  /** Lines 89-96: the listener in slot 0, every client slot empty. */
  function InitSlots(listenfd: int): (r: seq<Slot>)
    ensures |r| == USER_LIMIT + 1
    ensures r[0] == Slot(listenfd, LISTEN_EVENTS)
    ensures forall k :: 1 <= k <= USER_LIMIT ==> r[k].fd == -1 && r[k].events == 0
  {
    [Slot(listenfd, LISTEN_EVENTS)] + seq(USER_LIMIT, _ => Slot(-1, 0))
  }

  /**
   * Swap-remove (`fds[i] = fds[user_counter]`, then `user_counter--`): the
   * last client slot overwrites slot `i`. The stale copy left at the old last
   * position lies beyond the new counter.
   */
  function RemoveSlot(slots: seq<Slot>, counter: nat, i: nat): (r: seq<Slot>)
    requires 1 <= i <= counter < |slots|
    ensures |r| == |slots| && r[0] == slots[0]
    ensures multiset(ActiveFds(r, counter - 1)) == multiset(ActiveFds(slots, counter)) - multiset{slots[i].fd}
    ensures r[i] == slots[counter]
    ensures forall k :: 0 <= k < |slots| && k != i ==> r[k] == slots[k]
  {
    var r := slots[i := slots[counter]];
    RemoveSlotFds(slots, counter, i);
    r
  }

  lemma RemoveSlotFds(slots: seq<Slot>, counter: nat, i: nat)
    requires 1 <= i <= counter < |slots|
    ensures multiset(ActiveFds(slots[i := slots[counter]], counter - 1))
         == multiset(ActiveFds(slots, counter)) - multiset{slots[i].fd}
  {
    var before := ActiveFds(slots, counter);
    var after := ActiveFds(slots[i := slots[counter]], counter - 1);
    if i == counter {
      assert before == after + [slots[i].fd];
    } else {
      assert before == before[..i - 1] + [slots[i].fd] + before[i..counter - 1] + [slots[counter].fd];
      assert after == before[..i - 1] + [slots[counter].fd] + before[i..counter - 1];
    }
  }

  /**
   * Lines 232-236: the index of the first slot holding `fd`, searching the
   * whole array; `|fds|` when no slot holds it (the source would run past the
   * end of the array).
   */
  function FirstSlot(fds: seq<int>, fd: int): (k: nat)
    ensures k <= |fds|
    ensures k < |fds| ==> fds[k] == fd
    ensures forall j :: 0 <= j < k ==> fds[j] != fd
    ensures k == |fds| <==> fd !in fds
    decreases |fds|
  {
    if |fds| == 0 then 0
    else if fds[0] == fd then 0
    else 1 + FirstSlot(fds[1..], fd)
  }
}

=== FILE: vectors.dfy ===
/**
 * The `vectorerase` helper of the server: removes every occurrence of a
 * descriptor from a member vector, shifting the remaining elements left.
 */
module Vectors {

  /** `v` without any occurrence of `fd`; the other elements keep their order. */
  function Erase(fd: int, v: seq<int>): (r: seq<int>)
    ensures fd !in r
    ensures |r| <= |v|
    ensures forall x :: x in r <==> x in v && x != fd
    ensures forall x :: x != fd ==> multiset(r)[x] == multiset(v)[x]
    decreases |v|
  {
    if |v| == 0 then []
    else
      assert v == [v[0]] + v[1..];
      if v[0] == fd then Erase(fd, v[1..])
      else [v[0]] + Erase(fd, v[1..])
  }

  /**
   * The iterator loop of `vectorerase`: an element equal to `fd` is erased in
   * place (the iterator then points at its successor), any other element is
   * stepped over.
   */
  method VectorErase(fd: int, v: seq<int>) returns (w: seq<int>)
    ensures w == Erase(fd, v)
    ensures fd !in w
  {
    w := v;
    var i := 0;
    while i < |w|
      invariant 0 <= i <= |w|
      invariant w[..i] + Erase(fd, w[i..]) == Erase(fd, v)
      decreases |w| - i
    {
      assert w[i..] == [w[i]] + w[i + 1..];
      if w[i] == fd {
        ghost var before := w;
        w := w[..i] + w[i + 1..];
        assert w[..i] == before[..i] && w[i..] == before[i + 1..];
      } else {
        i := i + 1;
      }
    }
    assert w[i..] == [];
    assert w[..i] == w;
  }

  /** `a` occurs in `b` as a (not necessarily contiguous) subsequence. */
  ghost predicate IsSubsequence(a: seq<int>, b: seq<int>)
    decreases |b|
  {
    |a| == 0 || (|b| > 0 && if a[0] == b[0] then IsSubsequence(a[1..], b[1..]) else IsSubsequence(a, b[1..]))
  }

  /** Erasing keeps the survivors in their original relative order. */
  lemma {:induction false} EraseIsSubsequence(fd: int, v: seq<int>)
    ensures IsSubsequence(Erase(fd, v), v)
    decreases |v|
  {
    if |v| > 0 {
      EraseIsSubsequence(fd, v[1..]);
      if v[0] == fd {
        SubsequenceOfTail(Erase(fd, v[1..]), v);
      } else {
        var r := Erase(fd, v);
        assert r == [v[0]] + Erase(fd, v[1..]);
        assert r[1..] == Erase(fd, v[1..]);
      }
    }
  }

  /** A subsequence of the tail of `b` is a subsequence of `b`. */
  lemma {:induction false} SubsequenceOfTail(a: seq<int>, b: seq<int>)
    requires |b| > 0
    requires IsSubsequence(a, b[1..])
    ensures IsSubsequence(a, b)
    decreases |b|, 0
  {
    if |a| > 0 && a[0] == b[0] {
      DropFirst(a, b[1..]);
    }
  }

  /** Dropping the head of a subsequence leaves a subsequence. */
  lemma {:induction false} DropFirst(a: seq<int>, b: seq<int>)
    requires |a| > 0
    requires IsSubsequence(a, b)
    ensures IsSubsequence(a[1..], b)
    decreases |b|, 1
  {
    if a[0] == b[0] {
      SubsequenceOfTail(a[1..], b);
    } else {
      DropFirst(a, b[1..]);
      SubsequenceOfTail(a[1..], b);
    }
  }

  /** Erasing distributes over concatenation: it acts element by element. */
  lemma {:induction false} EraseConcat(fd: int, a: seq<int>, b: seq<int>)
    ensures Erase(fd, a + b) == Erase(fd, a) + Erase(fd, b)
    decreases |a|
  {
    if |a| > 0 {
      assert (a + b)[1..] == a[1..] + b;
      EraseConcat(fd, a[1..], b);
    } else {
      assert a + b == b;
    }
  }

  /** Erasing an element that does not occur leaves the vector as it is. */
  lemma {:induction false} EraseAbsent(fd: int, v: seq<int>)
    requires fd !in v
    ensures Erase(fd, v) == v
    decreases |v|
  {
    if |v| > 0 {
      EraseAbsent(fd, v[1..]);
      assert v == [v[0]] + v[1..];
    }
  }

  /** Appending `fd` and then erasing it is the same as erasing it. */
  lemma EraseAppended(fd: int, v: seq<int>)
    ensures Erase(fd, v + [fd]) == Erase(fd, v)
  {
    EraseConcat(fd, v, [fd]);
    assert Erase(fd, [fd]) == Erase(fd, []);
  }
}

=== FILE: wrappers.dfy ===
/** The optional value used for pending writes: `None` stands for a null `write_buf`. */
module Wrappers {

  datatype Option<+T> = None | Some(value: T)
}
